=== FILE: README.md ===
# A stock exchange core, modelled in Dafny

This project models the core of a small stock exchange: a trader ledger, a
session-token table, one limit order book per stock, and a matching tick.
The released module is `dist/stock.js`. It keeps four global tables:

- `STOCKS`: one book of bids and asks per stock;
- `TRADERS`: cash, password and holdings per trader;
- `VALID_TOKENS`: session token to trader and expiry time;
- `TRANSACTIONS`: the trade log.

Here those four tables are one immutable record, `Types.Market`, and every
operation is a pure function from a market to a `Result` (an error, or the
next market). An earlier draft of the same module (`src/stock.js`) is
modelled beside it, so the two can be set against each other. The example
the server boots with (`dist/bootstrap.js`) is worked through as a
concrete scenario.

Modules, in dependency order:

- `Types`: the records. It also holds the error codes, one per exception
  message of the source.
- `Sums`: sums over finite maps. The conservation lemmas are stated with
  them.
- `Sessions`:
  - issuing a token (`_generateToken`);
  - resolving it (`getTraderNameFromToken`);
  - revoking it (`logoutTrader`);
  - the expiry sweep (`_updateTokens`).
- `Ledger`:
  - `registerTrader`, `loginTrader`, `logoutTrader` and `getTraderStatus`;
  - `_updateOwns`;
  - the cash and share movements a trade makes, and the totals they keep.
- `Book`:
  - the price comparators and the stable sort (`sortByPrice`);
  - the removal of a trader's earlier order;
  - `_place`, `placeBid` and `placeAsk`;
  - the invariants every book keeps. Each queue is sorted best price first,
    holds at most one order per trader, contains only positive quantities,
    and names only registered traders.
- `Levels`: the aggregated view of a book (`_simplifyData`,
  `getStockLOB`).
- `Matching`: `step`, one stock at a time. It pairs the head bid with the
  head ask, re-validates the pair, settles it, and logs the trade.
- `Snapshot`: `_get_state_`, `_clean_state_` and `_set_state_`.
- `Draft`: the earlier draft's `_place` and `step`.
- `Scenario`: the bootstrap example.

Decisions the model makes about the source:

- **Time and fresh tokens are inputs.** The clock (`_now`) is a parameter
  `now`. A tick uses one `now` for every trade it makes. The random token
  is a parameter `newToken`, which must not already be in the table. This
  is what the retry loop at `dist/stock.js:55-58` guarantees, and
  `Sessions.FreshTokenExists` shows that such a token always exists.
- **Numbers are exact integers.** Money, prices, quantities and holdings
  are `int`. The source's floating point and its `isFinite` tests have no
  counterpart. A fractional quantity cannot be represented; the source's
  integrality test (`quantity % 0 === 0`) is always false, so it never
  rejected one either.
- **The funding check follows JavaScript's parse.** The expression is
  `(kind is ask and the holding is falsy) or holding < quantity`. So a bid
  is refused with "not enough stock" when the trader has an entry for the
  stock (even 0) below the bid's quantity. An absent holding compares
  false. `Book.LacksStock` states exactly this.
- **The sort is a stable insertion sort.** `Array.prototype.sort` is stable
  since ECMAScript 2019 (V8 7.0, Node 11); older V8 versions sorted arrays
  of more than 10 elements unstably, and the model assumes a current
  engine. `Book.StableSortUnique` shows that any sorted result which
  keeps the relative order of equal prices is the one `SortByPrice`
  computes. So the choice of stable algorithm does not matter.
- **Stock order is a parameter.** `step` walks `Object.keys(STOCKS)`. Here
  that order is a parameter `names`.
- **Books must name registered traders.** `step` reads `TRADERS[from]` and
  `TRADERS[to]` without a check, so a resting order of an unknown trader
  would throw. Placement, registration, login, logout and the tick keep the
  invariant that books name only registered traders (`KnownBooks`, part of
  `Book.Wellformed`), and `step` requires it. A restore keeps it only when
  the snapshot's books name traders the exchange will have
  (`Snapshot.SetStateKeepsWellformed`).
- **A failed pair ends the stock's loop for this tick.** When the head pair
  fails validation, the source leaves `retry` false. The loop then ends for
  that stock; it does not move on to the next pair.
- **The draft crashes where its code throws.** The draft's `step` has two
  statements that throw a TypeError, and the draft's outcome is either
  `Finished` or `Crashed`. In both cases every change made before the throw
  is kept, and the crash also ends the walk over the remaining stocks.
  - It reads the head of a queue without checking that the queue is
    non-empty. On an empty queue that read throws.
  - On a partial fill it executes `highestBid -= q` (or `lowestAsk -= q`).
    That statement assigns to a `const` binding, and in an ES module this
    always throws. So a partial fill throws after the trade is logged and
    before anything is paid. One could read the statement as a harmless
    rebinding of a local variable, but the model follows what the code
    does.
- **The draft's `_simplifyData` is the same function.** The draft's version
  (`src/stock.js:239-254`) is identical to the released one, so `Levels`
  models both.

## Model

| member | source | states |
|---|---|---|
| Sessions.Resolve | dist/stock.js:65-75 | a token resolves iff it is in the table and `now` is not past its expiry, and then to the trader it was issued for; an unknown token is `InvalidToken` and a known one past its expiry is `ExpiredToken` |
| Sessions.Issue | dist/stock.js:50-61 | a new session adds exactly one token and keeps every other entry; the token resolves to its trader up to `now + TOKEN_DURATION` and reads as expired after that |
| Sessions.FreshTokenExists | dist/stock.js:55-58 | some string is not in the table, so a fresh `newToken` can always be chosen |
| Sessions.Revoke | dist/stock.js:114-116 | logout removes exactly the given token and keeps every other entry unchanged |
| Sessions.RevokeIdempotent | dist/stock.js:114-116 | logging out twice is logging out once, and logging out an unknown token changes nothing |
| Sessions.Sweep | dist/stock.js:77-86 | the sweep keeps exactly the tokens that have not expired at `now`, with their data unchanged |
| Sessions.SweepKeepsResolution | dist/stock.js:77-86 | after a sweep, every token resolves at any later time as it did before, except that an expired token now reads as unknown |
| Sessions.SweepIdempotent | dist/stock.js:77-86 | a second sweep at the same time removes nothing more |
| Ledger.UpdateOwns | dist/stock.js:276-282 | the holding of the stock grows by exactly the delta (an absent holding counts as 0), and every other holding is unchanged |
| Ledger.CreditTotals | dist/stock.js:366-367 | a cash adjustment changes the cash total by exactly its amount and no share total |
| Ledger.MoveShares | dist/stock.js:368-369 | a holdings adjustment changes one trader's holding of the moved stock only |
| Ledger.MoveTotals | dist/stock.js:368-369 | a holdings adjustment changes that stock's share total by exactly its amount, and no other total |
| Ledger.Register | dist/stock.js:88-103 | registration fails iff the name exists or the money is negative; on success it adds exactly that trader with no holdings, keeps every other trader, and opens one new session, the `newToken` issued for it, which resolves to it until `now + TOKEN_DURATION` and is expired after that |
| Ledger.Login | dist/stock.js:105-112 | login succeeds iff the trader exists and the password matches; it only adds a session, the `newToken` issued for it, which resolves to the trader until `now + TOKEN_DURATION`; it keeps the older sessions and touches nothing else |
| Ledger.Logout | dist/stock.js:114-116 | logout is the token revocation and changes nothing but the session table |
| Ledger.GetStatus | dist/stock.js:118-128 | the status reports the resolved trader's cash and holdings; a token error passes through unchanged, and an unknown trader is an error |
| Ledger.RegisterThenLogin | dist/stock.js:88-112 | a fresh registration can log in with its password and with no other, and its status shows the deposit and no holdings |
| Ledger.SessionsIndependent | dist/stock.js:105-116 | a later login of the same trader leaves an older session working, and logging out the new session leaves the old one alone |
| Book.SortByPrice | dist/stock.js:146-148 | sorting keeps the queue's length; its partner lemmas below show it is the stable sort by the source's comparators |
| Book.SortByPricePerm | dist/stock.js:146-148 | sorting permutes the queue |
| Book.SortByPriceSorted | dist/stock.js:138-148 | sorting leaves bids in non-increasing and asks in non-decreasing price order |
| Book.SortByPriceStable | dist/stock.js:146-148 | sorting keeps the relative order of orders with equal prices |
| Book.StableSortUnique | dist/stock.js:146-148 | any sorted queue that keeps the relative order at every price is the sort's result |
| Book.SameLevelsSame | dist/stock.js:138-148 | two sorted queues that agree at every price level are equal |
| Book.FindIndex | dist/stock.js:189-191 | the index found is the first order of the trader, or -1 when the trader has none |
| Book.RemovePrior | dist/stock.js:187-194 | removal deletes exactly the order at the first index of the trader, shifting the later ones down, and changes nothing when the trader has none |
| Book.RemovePriorOthers | dist/stock.js:187-194 | removing a trader's earlier order keeps every other trader's orders in order |
| Book.RemovePriorOwn | dist/stock.js:187-194 | removal takes out the trader's first order only |
| Book.RemovePriorSorted | dist/stock.js:187-194 | removal keeps a queue sorted |
| Book.PushSort | dist/stock.js:196-198 | pushing onto a sorted queue and sorting is the same as inserting the order into its place in the queue |
| Book.ReplaceSpec | dist/stock.js:187-198 | replacing a trader's order in a sorted queue with one order per trader keeps it so, leaves that trader exactly the new order, and keeps everybody else's orders |
| Book.RequeueSpec | dist/stock.js:187-199 | the same, with quantity 0 leaving the trader no order at all |
| Book.Requeue | dist/stock.js:187-199 | the queue loses the trader's earlier order and gains one order exactly when the quantity is positive; `Book.RequeueSpec` says which |
| Book.Place | dist/stock.js:155-200 | a placement succeeds iff the token resolves, the trader and stock exist, price and quantity are non-negative, and for a positive quantity the funding checks pass; on success it changes only the placed side of that one stock; token errors pass through |
| Book.PlaceBid | dist/stock.js:202-204 | a bid is accepted iff the common checks pass and, for a positive quantity, the buyer can pay price times quantity and either has no entry for the stock or holds at least the quantity (the parsed holdings test); it leaves the asks and every account alone |
| Book.PlaceAsk | dist/stock.js:206-208 | an ask is accepted iff the common checks pass and, for a positive quantity, the seller holds at least that many shares; no cash is needed; it leaves the bids and every account alone |
| Book.PlaceErrors | dist/stock.js:156-185 | a refused placement reports the first failing check, in the source's order |
| Book.PlaceReplaces | dist/stock.js:171-199 | after a placement the trader has exactly the new order on that side, or none for quantity 0, and every other trader's orders are unchanged |
| Book.PlaceKeepsWellformed | dist/stock.js:155-200 | a placement keeps every book sorted, with one positive order per trader per side, naming registered traders |
| Book.AccountsKeepWellformed | dist/stock.js:88-116 | registration, login and logout keep every book well formed |
| Levels.Simplify | dist/stock.js:210-225 | the view has no more rows than the queue has orders; `Levels.SimplifyIsRuns` ties it to the independent run definition |
| Levels.SimplifyIsRuns | dist/stock.js:210-225 | the aggregated view is the book's maximal equal-price runs, less a leading run at price 0 |
| Levels.RunsSpec | dist/stock.js:214-223 | the runs have no two adjacent rows at the same price, and at every price they hold the book's total quantity |
| Levels.SimplifySpec | dist/stock.js:210-225 | the aggregated view has no two adjacent rows at the same price, and at every non-zero price it shows the book's total quantity |
| Levels.SimplifySorted | dist/stock.js:210-225 | on a sorted queue, the view's prices strictly improve from row to row |
| Levels.ZeroAsksHidden | dist/stock.js:214-219 | a price-0 order ahead of one at 5 is dropped from the view, which shows only the level at 5 |
| Levels.GetStockLob | dist/stock.js:227-236 | the book view exists iff the stock does, and is the aggregation of both sides |
| Matching.Candidate | dist/stock.js:318-325 | the potential trade's quantity is the smaller head quantity, so it fills at least one head |
| Matching.Valid | dist/stock.js:327-347 | a head pair fails validation iff the parties are the same trader, the seller holds fewer shares than the quantity, or the buyer has less cash than price times quantity |
| Matching.Execute | dist/stock.js:349-369 | executing a trade settles it (buyer pays price times quantity to the seller and the shares move the other way, through `Matching.Settlement`), fills both heads by the traded quantity (through `Matching.Fill`), removing each head it fills completely, and appends exactly that trade to the log |
| Matching.Fill | dist/stock.js:354-364 | a fully filled head is spliced out; a partly filled head keeps its trader, price and place and its quantity drops by exactly the traded amount; the rest of the queue is unchanged |
| Matching.MatchStock | dist/stock.js:307-377 | the loop ends with no valid crossing pair, only appends to the log, takes out at least one order per logged trade, and changes nothing when it logs none |
| Matching.MatchFirstTrade | dist/stock.js:310-352 | the first trade the loop logs is between the head ask's seller and the head bid's buyer, at the ask's price, for the smaller head quantity; the heads crossed and the pair passed validation; later trades are the first trade of the loop that continues on the executed book |
| Matching.SettlementParties | dist/stock.js:366-369 | a trade pays price times quantity from buyer to seller and ships the quantity from seller to buyer |
| Matching.TransferConserves | dist/stock.js:366-369 | one settlement keeps the cash total and every share total |
| Matching.MatchConserves | dist/stock.js:307-377 | matching a stock keeps the cash total and every share total |
| Matching.MatchTrades | dist/stock.js:318-352 | every trade matching logs is between two different traders, is for this stock, and carries the tick's time |
| Matching.SettlementOthers | dist/stock.js:366-369 | a settlement leaves every trader other than its two parties unchanged |
| Matching.MatchOthers | dist/stock.js:307-377 | a trader who is party to no logged trade ends the loop exactly as it started |
| Matching.FillKeeps | dist/stock.js:354-364 | filling the head keeps a well-formed queue well formed |
| Matching.MatchKeepsBook | dist/stock.js:307-377 | matching keeps both queues well formed |
| Matching.SettlementSolvent | dist/stock.js:327-369 | a trade that passed validation leaves no trader with negative cash or holdings |
| Matching.MatchSolvent | dist/stock.js:307-377 | matching never leaves a trader owing cash or shares |
| Matching.Settle | dist/stock.js:301-377 | one stock's loop changes only that stock's book, appends to the log, and leaves no valid crossing pair in that book |
| Matching.Step | dist/stock.js:300-379 | a tick keeps the sets of stocks and traders and the session table, and only appends to the log |
| Matching.StepConserves | dist/stock.js:300-379 | a tick keeps the cash total and every share total |
| Matching.StepTrades | dist/stock.js:300-379 | every trade of a tick is between two different traders, for a listed stock, at the tick's time |
| Matching.StepKeepsWellformed | dist/stock.js:300-379 | a tick keeps every book well formed |
| Matching.StepSolvent | dist/stock.js:300-379 | a tick never leaves a trader owing cash or shares |
| Matching.StepIdle | dist/stock.js:307-349 | a tick in which no listed stock has a valid crossing head pair changes nothing |
| Snapshot.GetState | dist/stock.js:260-266 | a snapshot holds the stocks, traders and transaction log of the exchange, and no sessions |
| Snapshot.Clean | dist/stock.js:254-258 | cleaning empties the stocks, the traders and the log and keeps the sessions; `Snapshot.RestoreRoundTrip` restores what it removed |
| Snapshot.SetState | dist/stock.js:268-274 | the snapshot's stocks and traders are laid over the live ones (the snapshot wins on a shared name), its trades follow the live log, and sessions are untouched |
| Snapshot.SetStateKeepsWellformed | dist/stock.js:268-270 | a restore keeps every book well formed when the snapshot's books are well formed against the traders the exchange will have after it |
| Snapshot.RestoreRoundTrip | dist/stock.js:254-274 | restoring a snapshot into a cleaned exchange gives back the exchange it was taken from |
| Snapshot.RestoreTwice | dist/stock.js:268-274 | restoring the same snapshot twice changes no table further but logs its trades a second time |
| Snapshot.RestoreIntoItself | dist/stock.js:260-274 | restoring the live exchange's own snapshot keeps the tables and doubles the log |
| Draft.DraftPlace | src/stock.js:178-219 | the draft's placement fails iff the token, trader, stock, price or quantity check fails, with no funding check; on success it changes only the placed side of that one stock |
| Draft.DraftPlaceAgrees | src/stock.js:185-216 | the draft refuses what the released core refuses except the two funding refusals, accepts whatever it accepts, and for a positive quantity places the same order |
| Draft.DraftPlaceSorted | src/stock.js:207-218 | the draft's placement leaves the placed side sorted |
| Draft.DraftZeroRests | src/stock.js:207-216 | a zero-quantity order rests in the draft's book, where the released core cancels; other traders' orders are the same in both |
| Draft.DraftMatch | src/stock.js:310-363 | the draft's loop ends normally only when both heads exist and do not cross, only appends to the log, and leaves a non-crossing book as it is |
| Draft.DraftFirstTrade | src/stock.js:318-337 | crossing heads log a trade at the ask's price for the smaller head quantity, between the head ask's and head bid's traders |
| Draft.DraftPartialFill | src/stock.js:337-349 | a partial fill crashes the tick with the trade logged and nobody paid; the larger head keeps its stored quantity, and a fully filled bid is already spliced out |
| Draft.DraftMatchConserves | src/stock.js:351-357 | however the draft's loop ends, the cash total and every share total are kept |
| Draft.DraftOversells | src/stock.js:315-357 | with no re-validation, a trader with no shares sells one and is left holding -1 |
| Draft.DraftStep | src/stock.js:303-365 | a draft tick keeps the sets of stocks and traders and leaves unlisted stocks alone; if it finishes, every listed book has two heads that do not cross |
| Draft.DraftEmptyQueueCrashes | src/stock.js:310-318 | when the first listed stock has an empty queue, the tick crashes before anything changes |
| Draft.DraftEmptyQueueAnywhere | src/stock.js:303-318 | when any listed stock has an empty queue, the tick cannot finish: it crashes there or at an earlier stock |
| Draft.DraftStepConserves | src/stock.js:303-365 | a draft tick keeps the cash total and every share total, however it ends |
| Scenario.BootstrapBook | dist/bootstrap.js:51-57 | the seven placements leave bids t02@67, t11@30, t01@27 and asks t03@62, t08@77 |
| Scenario.TradeSettles | dist/bootstrap.js:57 | settling the crossing pair leaves t02 with 938 cash and 6 shares and t03 with 1062 cash and 4 shares |
| Scenario.FirstRound | dist/bootstrap.js:57 | the heads t02@67 and t03@62 cross and pass validation, and trade one share at 62 |
| Scenario.SecondRound | dist/bootstrap.js:53-56 | the next heads, t11@30 and t08@77, do not cross |
| Scenario.BootstrapTick | dist/bootstrap.js:51-57 | the tick after the bootstrap makes exactly the one trade t03 to t02, one share at 62, and leaves bids t11@30, t01@27 and ask t08@77 |
| Scenario.BootstrapKnown | dist/bootstrap.js:37-57 | the bootstrapped book names registered traders only |

## Left out

- I/O is left out: the servers, the event emitter (`dist/stock.js:371`),
  and the bootstrap's reading of a saved state file
  (`dist/bootstrap.js:17-25`). A trade's emission is represented by its
  entry in the log only.
- Sessions.FreshTokenExists: shows that some string is missing from the
  table, not that `_randomString(8)` can produce one. Its `~~` truncation
  limits it to at most 2^32 values, so once all of them were taken, the
  retry loop at `dist/stock.js:56-58` would never end. The model's fresh
  `newToken` parameter cannot express that.
- `_now` and `_randomString` are inputs: the clock is a parameter `now`, and
  the random token is a parameter `newToken` that is required to be fresh.
- `isFinite` and IEEE-754 arithmetic are not modelled: numbers are exact
  integers, so a fractional quantity or a rounded `price * quantity` cannot
  occur. The source's integrality test is always false and never rejects
  anything.
- `getStats`, `getStockNames` and `getTransactions` are not modelled; they
  only read the tables. `getStats` sums the queues wrongly, because its
  `reduce` ignores the accumulator.
- Snapshot.SetState: restores whatever snapshot it is given, as
  `_set_state_` does, so a snapshot whose books name unknown traders or are
  unsorted breaks the book invariant; the model shows the invariant kept
  only for well-formed snapshots, and the throw a later tick would then
  raise is not modelled.
- `_get_state_`, `_clean_state_` and `_set_state_` work on live object
  references in the source. A snapshot taken with `_get_state_` aliases the
  tables, so `_clean_state_` empties the snapshot too. The model's snapshot
  is a value, and `Snapshot.RestoreRoundTrip` is stated for a copy taken
  before cleaning.
- The bootstrap's registrations and direct grants of shares
  (`dist/bootstrap.js:34-48`) are not replayed: `Scenario` starts from the
  accounts and sessions they leave. Tokens are named `k11` to `k03` in place
  of random strings.
- `Matching.Step` requires that every resting order names a registered
  trader. Where one does not, the source would throw a TypeError part-way
  through the tick, and that is not modelled.
- `Matching.StepConserves`, `Matching.MatchConserves` and
  `Draft.DraftStepConserves` state conservation of shares one stock `s` at a
  time, for any `s`, not as a single statement over all stocks.
- `Draft.DraftStep` models a run of the draft whose books name registered
  traders only, as the released `step` does.
- The draft's registration, login, logout, status and session code is the
  same as the released code (`src/stock.js:71-150`), so it is not modelled
  a second time.
- JavaScript object-key quirks are not modelled: inherited names answering
  `in` and `hasOwnProperty` filtering.

=== FILE: book.dfy ===
/** Per-stock order queues: the price comparators, the stable sort, the
    replace-or-cancel of a trader's resting order, and order placement with
    its validation. */
module Book {
  import opened Types
  import opened Sessions
  import opened Ledger

  /** Sign of n. */
  function Sigma(n: int): int {
    if n < 0 then -1 else if n > 0 then 1 else 0
  }

  /** The comparator given to the sort: descending price for bids,
      ascending price for asks. Negative means `a` goes first. */
  function Compare(side: Side, a: Order, b: Order): int {
    match side
    case Bid => Sigma(b.price - a.price)
    case Ask => Sigma(a.price - b.price)
  }

  /** Price priority: a higher bid, or a lower ask, is at least as good. */
  predicate AtLeastAsGood(side: Side, p: int, p': int) {
    match side
    case Bid => p >= p'
    case Ask => p <= p'
  }

  /** Bids by non-increasing price, asks by non-decreasing price. */
  predicate Sorted(side: Side, q: seq<Order>) {
    forall i, j :: 0 <= i < j < |q| ==> AtLeastAsGood(side, q[i].price, q[j].price)
  }

  /** At most one order per trader. */
  predicate SingleOrders(q: seq<Order>) {
    forall i, j :: 0 <= i < j < |q| ==> q[i].trader != q[j].trader
  }

  /** A selection of orders: those at one price, those of one trader, or
      those of everybody else. */
  datatype Criterion = PricedAt(price: int) | By(trader: Name) | NotBy(trader: Name) {
    predicate Holds(o: Order) {
      match this
      case PricedAt(p) => o.price == p
      case By(w) => o.trader == w
      case NotBy(w) => o.trader != w
    }
  }

  /** The orders of q meeting c, in their queue order. */
  function Filter(q: seq<Order>, c: Criterion): (r: seq<Order>)
    ensures |r| <= |q|
  {
    if |q| == 0 then []
    else (if c.Holds(q[0]) then [q[0]] else []) + Filter(q[1..], c)
  }

  /** Filter keeps exactly the orders meeting c. */
  lemma {:induction false} FilterMembers(q: seq<Order>, c: Criterion)
    ensures forall x :: x in Filter(q, c) <==> x in q && c.Holds(x)
    decreases |q|
  {
    if |q| > 0 {
      FilterMembers(q[1..], c);
      assert q == [q[0]] + q[1..];
    }
  }

  /** Nothing selected when no order meets c. */
  lemma {:induction false} FilterNone(q: seq<Order>, c: Criterion)
    requires forall k :: 0 <= k < |q| ==> !c.Holds(q[k])
    ensures Filter(q, c) == []
    decreases |q|
  {
    if |q| > 0 {
      FilterNone(q[1..], c);
    }
  }

  /** A one-order queue is selected or not as a whole. */
  lemma FilterSingle(x: Order, c: Criterion)
    ensures Filter([x], c) == if c.Holds(x) then [x] else []
  {
    assert [x][1..] == [];
  }

  /** Selecting from a queue with a known head. */
  lemma FilterCons(x: Order, q: seq<Order>, c: Criterion)
    ensures Filter([x] + q, c) == (if c.Holds(x) then [x] else []) + Filter(q, c)
  {
    var xq := [x] + q;
    assert xq[0] == x && xq[1..] == q;
  }

  /** Selection distributes over concatenation. */
  lemma {:induction false} FilterAppend(a: seq<Order>, b: seq<Order>, c: Criterion)
    ensures Filter(a + b, c) == Filter(a, c) + Filter(b, c)
    decreases |a|
  {
    if |a| == 0 {
      assert a + b == b;
    } else {
      var ab := a + b;
      assert ab[0] == a[0];
      assert ab[1..] == a[1..] + b;
      FilterAppend(a[1..], b, c);
      assert Filter(ab, c) == (if c.Holds(a[0]) then [a[0]] else []) + Filter(a[1..] + b, c);
    }
  }

  /** Splitting a queue around one order splits its selection likewise. */
  lemma FilterSplit(q: seq<Order>, i: int, c: Criterion)
    requires 0 <= i < |q|
    ensures Filter(q, c) == Filter(q[..i], c) + Filter([q[i]], c) + Filter(q[i + 1..], c)
  {
    assert q == q[..i] + [q[i]] + q[i + 1..];
    FilterAppend(q[..i] + [q[i]], q[i + 1..], c);
    FilterAppend(q[..i], [q[i]], c);
  }

  /** Where the stable sort puts a new order o pushed after a queue: past
      every order o does not strictly beat, before the first one it does. */
  function Slot(side: Side, q: seq<Order>, o: Order): (j: nat)
    ensures j <= |q|
    ensures forall i :: 0 <= i < j ==> Compare(side, o, q[i]) >= 0
    ensures j < |q| ==> Compare(side, o, q[j]) < 0
  {
    if |q| == 0 || Compare(side, o, q[0]) < 0 then 0
    else 1 + Slot(side, q[1..], o)
  }

  /** Stable insertion of o at its slot. */
  function Insert(side: Side, q: seq<Order>, o: Order): (r: seq<Order>)
    ensures |r| == |q| + 1
  {
    var j := Slot(side, q, o);
    assert q == q[..j] + q[j..];
    q[..j] + [o] + q[j..]
  }

  /** In a sorted queue, everything from o's slot on is strictly worse than o,
      and inserting o keeps the queue sorted. */
  lemma InsertSorted(side: Side, q: seq<Order>, o: Order)
    requires Sorted(side, q)
    ensures forall i :: Slot(side, q, o) <= i < |q| ==> AtLeastAsGood(side, o.price, q[i].price) && o.price != q[i].price
    ensures Sorted(side, Insert(side, q, o))
  {
    var j := Slot(side, q, o);
    var r := Insert(side, q, o);
    assert forall i :: j <= i < |q| ==> AtLeastAsGood(side, o.price, q[i].price) && o.price != q[i].price by {
      forall i | j <= i < |q|
        ensures AtLeastAsGood(side, o.price, q[i].price) && o.price != q[i].price
      {
        assert AtLeastAsGood(side, q[j].price, q[i].price);
      }
    }
    assert forall k :: 0 <= k < |r| ==> r[k] == if k < j then q[k] else if k == j then o else q[k - 1];
    forall a, b | 0 <= a < b < |r|
      ensures AtLeastAsGood(side, r[a].price, r[b].price)
    {
      if b < j {
      } else if b == j {
        assert Compare(side, o, q[a]) >= 0;
      } else if a < j {
        assert AtLeastAsGood(side, q[a].price, q[b - 1].price);
      } else if a == j {
      } else {
        assert AtLeastAsGood(side, q[a - 1].price, q[b - 1].price);
      }
    }
  }

  /** sortByPrice, a stable sort under Compare, taken here as insertion sort;
      StableSortUnique shows every stable sort gives the same queue. */
  function SortByPrice(side: Side, q: seq<Order>): (r: seq<Order>)
    ensures |r| == |q|
    decreases |q|
  {
    if |q| == 0 then []
    else
      var init, last := q[..|q| - 1], q[|q| - 1];
      assert q == init + [last];
      Insert(side, SortByPrice(side, init), last)
  }

  /** Insertion adds o and nothing else. */
  lemma InsertPerm(side: Side, q: seq<Order>, o: Order)
    ensures multiset(Insert(side, q, o)) == multiset(q) + multiset{o}
  {
    var j := Slot(side, q, o);
    assert q == q[..j] + q[j..];
  }

  /** The sort is a permutation. */
  lemma {:induction false} SortByPricePerm(side: Side, q: seq<Order>)
    ensures multiset(SortByPrice(side, q)) == multiset(q)
    decreases |q|
  {
    if |q| > 0 {
      var init, last := q[..|q| - 1], q[|q| - 1];
      assert q == init + [last];
      SortByPricePerm(side, init);
      InsertPerm(side, SortByPrice(side, init), last);
    }
  }

  /** The sort orders bids by non-increasing and asks by non-decreasing price. */
  lemma {:induction false} SortByPriceSorted(side: Side, q: seq<Order>)
    ensures Sorted(side, SortByPrice(side, q))
    decreases |q|
  {
    if |q| > 0 {
      var init := q[..|q| - 1];
      SortByPriceSorted(side, init);
      InsertSorted(side, SortByPrice(side, init), q[|q| - 1]);
    }
  }

  /** Inserting into a sorted queue keeps the relative order of each price
      level and appends o to its own level. */
  lemma InsertStable(side: Side, q: seq<Order>, o: Order, p: int)
    requires Sorted(side, q)
    ensures Filter(Insert(side, q, o), PricedAt(p)) == Filter(q, PricedAt(p)) + (if o.price == p then [o] else [])
  {
    var j := Slot(side, q, o);
    InsertSorted(side, q, o);
    var front, back := q[..j], q[j..];
    assert q == front + back;
    FilterAppend(front, back, PricedAt(p));
    FilterAppend(front + [o], back, PricedAt(p));
    FilterAppend(front, [o], PricedAt(p));
    FilterSingle(o, PricedAt(p));
    if o.price == p {
      FilterNone(back, PricedAt(p));
    }
  }

  /** The sort keeps every price level in its original order. */
  lemma {:induction false} SortByPriceStable(side: Side, q: seq<Order>, p: int)
    ensures Filter(SortByPrice(side, q), PricedAt(p)) == Filter(q, PricedAt(p))
    decreases |q|
  {
    if |q| > 0 {
      var init, last := q[..|q| - 1], q[|q| - 1];
      assert q == init + [last];
      SortByPriceStable(side, init, p);
      SortByPriceSorted(side, init);
      InsertStable(side, SortByPrice(side, init), last, p);
      FilterAppend(init, [last], PricedAt(p));
      FilterSingle(last, PricedAt(p));
    }
  }

  /** The level of the head order is not empty. */
  lemma HeadLevel(q: seq<Order>)
    requires |q| > 0
    ensures Filter(q, PricedAt(q[0].price)) != []
  {
  }

  /** Two sorted queues with the same price levels, each in the same order,
      are equal. */
  lemma {:induction false} SameLevelsSame(side: Side, a: seq<Order>, b: seq<Order>)
    requires Sorted(side, a) && Sorted(side, b)
    requires forall p :: Filter(a, PricedAt(p)) == Filter(b, PricedAt(p))
    ensures a == b
    decreases |a| + |b|
  {
    if |a| == 0 && |b| > 0 {
      HeadLevel(b);
    } else if |b| == 0 && |a| > 0 {
      HeadLevel(a);
    } else if |a| > 0 {
      var x, y := a[0], b[0];
      assert AtLeastAsGood(side, y.price, x.price) by {
        FilterMembers(a, PricedAt(x.price));
        FilterMembers(b, PricedAt(x.price));
        assert x in Filter(b, PricedAt(x.price));
        var i :| 0 <= i < |b| && b[i] == x;
      }
      assert AtLeastAsGood(side, x.price, y.price) by {
        FilterMembers(a, PricedAt(y.price));
        FilterMembers(b, PricedAt(y.price));
        assert y in Filter(a, PricedAt(y.price));
        var i :| 0 <= i < |a| && a[i] == y;
      }
      var P := x.price;
      assert y.price == P;
      assert a == [x] + a[1..] && b == [y] + b[1..];
      FilterCons(x, a[1..], PricedAt(P));
      FilterCons(y, b[1..], PricedAt(P));
      assert x == y by {
        assert Filter(a, PricedAt(P))[0] == x;
      }
      forall p
        ensures Filter(a[1..], PricedAt(p)) == Filter(b[1..], PricedAt(p))
      {
        FilterCons(x, a[1..], PricedAt(p));
        FilterCons(y, b[1..], PricedAt(p));
        assert Filter(a, PricedAt(p)) == Filter(b, PricedAt(p));
        assert Filter([x] + a[1..], PricedAt(p)) == Filter(a, PricedAt(p));
        assert Filter([y] + b[1..], PricedAt(p)) == Filter(b, PricedAt(p));
        if p != P {
          assert !PricedAt(p).Holds(x);
          assert Filter(a, PricedAt(p)) == Filter(a[1..], PricedAt(p));
          assert Filter(b, PricedAt(p)) == Filter(b[1..], PricedAt(p));
        }
        if p == P {
          var fa, fb := Filter(a[1..], PricedAt(p)), Filter(b[1..], PricedAt(p));
          assert ([x] + fa)[1..] == fa && ([y] + fb)[1..] == fb;
        }
      }
      SameLevelsSame(side, a[1..], b[1..]);
    }
  }

  /** The result of a stable price sort is determined: any sorted queue that
      keeps every price level of q in order is SortByPrice(side, q). */
  lemma StableSortUnique(side: Side, q: seq<Order>, r: seq<Order>)
    requires Sorted(side, r)
    requires forall p :: Filter(r, PricedAt(p)) == Filter(q, PricedAt(p))
    ensures r == SortByPrice(side, q)
  {
    forall p
      ensures Filter(r, PricedAt(p)) == Filter(SortByPrice(side, q), PricedAt(p))
    {
      SortByPriceStable(side, q, p);
    }
    SortByPriceSorted(side, q);
    SameLevelsSame(side, r, SortByPrice(side, q));
  }

  /** An order no better than anything in q slots in at the end. */
  lemma {:induction false} SlotAtEnd(side: Side, q: seq<Order>, o: Order)
    requires forall i :: 0 <= i < |q| ==> AtLeastAsGood(side, q[i].price, o.price)
    ensures Slot(side, q, o) == |q|
    decreases |q|
  {
    if |q| > 0 {
      SlotAtEnd(side, q[1..], o);
    }
  }

  /** The front of a sorted queue is sorted and no worse than its last order. */
  lemma SortedFront(side: Side, init: seq<Order>, last: Order)
    requires Sorted(side, init + [last])
    ensures Sorted(side, init)
    ensures forall i :: 0 <= i < |init| ==> AtLeastAsGood(side, init[i].price, last.price)
  {
    var q := init + [last];
    assert forall i :: 0 <= i < |init| ==> q[i] == init[i];
    assert q[|init|] == last;
  }

  /** Inserting an order no better than anything in q appends it. */
  lemma InsertAtEnd(side: Side, q: seq<Order>, o: Order)
    requires forall i :: 0 <= i < |q| ==> AtLeastAsGood(side, q[i].price, o.price)
    ensures Insert(side, q, o) == q + [o]
  {
    SlotAtEnd(side, q, o);
    assert q[..|q|] == q && q[|q|..] == [];
  }

  /** Sorting a sorted queue changes nothing. */
  lemma {:induction false} SortedUnchanged(side: Side, q: seq<Order>)
    requires Sorted(side, q)
    ensures SortByPrice(side, q) == q
    decreases |q|
  {
    if |q| > 0 {
      var init, last := q[..|q| - 1], q[|q| - 1];
      assert q == init + [last];
      SortedFront(side, init, last);
      SortedUnchanged(side, init);
      InsertAtEnd(side, init, last);
    }
  }

  /** Pushing onto a sorted queue and sorting is a stable insertion. */
  lemma PushSort(side: Side, q: seq<Order>, o: Order)
    requires Sorted(side, q)
    ensures SortByPrice(side, q + [o]) == Insert(side, q, o)
  {
    assert (q + [o])[..|q|] == q;
    SortedUnchanged(side, q);
  }

  /** findIndex: the first order of `who`, or -1. */
  function FindIndex(q: seq<Order>, who: Name): (i: int)
    ensures -1 <= i < |q|
    ensures i >= 0 ==> q[i].trader == who && forall j :: 0 <= j < i ==> q[j].trader != who
    ensures i == -1 ==> forall j :: 0 <= j < |q| ==> q[j].trader != who
  {
    if |q| == 0 then -1
    else if q[0].trader == who then 0
    else
      var i := FindIndex(q[1..], who);
      if i == -1 then -1 else i + 1
  }

  /** Drops the first order of `who`, if any (findIndex + splice). */
  function RemovePrior(q: seq<Order>, who: Name): (r: seq<Order>)
    ensures |r| == if FindIndex(q, who) == -1 then |q| else |q| - 1
    ensures (forall k :: 0 <= k < |q| ==> q[k].trader != who) ==> r == q
    ensures forall k :: 0 <= k < FindIndex(q, who) ==> r[k] == q[k]
    ensures forall k :: 0 <= FindIndex(q, who) <= k < |r| ==> r[k] == q[k + 1]
  {
    var i := FindIndex(q, who);
    if i == -1 then q else q[..i] + q[i + 1..]
  }

  /** Removal keeps everybody else's orders, in order. */
  lemma RemovePriorOthers(q: seq<Order>, who: Name)
    ensures Filter(RemovePrior(q, who), NotBy(who)) == Filter(q, NotBy(who))
  {
    var i := FindIndex(q, who);
    if i != -1 {
      var front, back := q[..i], q[i + 1..];
      FilterSplit(q, i, NotBy(who));
      FilterAppend(front, back, NotBy(who));
      FilterSingle(q[i], NotBy(who));
      assert Filter(front, NotBy(who)) + [] + Filter(back, NotBy(who)) == Filter(front, NotBy(who)) + Filter(back, NotBy(who));
    }
  }

  /** Removal takes exactly the first of `who`'s orders. */
  lemma RemovePriorOwn(q: seq<Order>, who: Name)
    ensures Filter(RemovePrior(q, who), By(who)) == if Filter(q, By(who)) == [] then [] else Filter(q, By(who))[1..]
  {
    var i := FindIndex(q, who);
    if i == -1 {
      FilterNone(q, By(who));
    } else {
      var front, back := q[..i], q[i + 1..];
      var B := Filter(back, By(who));
      assert Filter(front, By(who)) == [] by {
        assert forall k :: 0 <= k < |front| ==> front[k] == q[k];
        FilterNone(front, By(who));
      }
      assert Filter(q, By(who)) == [q[i]] + B by {
        FilterSplit(q, i, By(who));
        FilterSingle(q[i], By(who));
      }
      FilterAppend(front, back, By(who));
      assert ([q[i]] + B)[1..] == B;
    }
  }

  /** Removal adds no order. */
  lemma RemovePriorSubset(q: seq<Order>, who: Name)
    ensures forall x :: x in RemovePrior(q, who) ==> x in q
  {
    var i := FindIndex(q, who);
    if i != -1 {
      assert q == q[..i] + [q[i]] + q[i + 1..];
    }
  }

  /** Where each order of q[..i] + q[i + 1..] comes from. */
  lemma DeleteIndex(q: seq<Order>, i: int)
    requires 0 <= i < |q|
    ensures |q[..i] + q[i + 1..]| == |q| - 1
    ensures forall k :: 0 <= k < |q| - 1 ==> (q[..i] + q[i + 1..])[k] == if k < i then q[k] else q[k + 1]
  {
  }

  /** Deleting one order keeps a queue sorted. */
  lemma RemovePriorSorted(side: Side, q: seq<Order>, who: Name)
    requires Sorted(side, q)
    ensures Sorted(side, RemovePrior(q, who))
  {
    var i := FindIndex(q, who);
    if i != -1 {
      var r := q[..i] + q[i + 1..];
      DeleteIndex(q, i);
      forall a, b | 0 <= a < b < |r|
        ensures AtLeastAsGood(side, r[a].price, r[b].price)
      {
        var a', b' := if a < i then a else a + 1, if b < i then b else b + 1;
        assert r[a] == q[a'] && r[b] == q[b'];
      }
    }
  }

  /** Deleting one order keeps one order per trader, and then none of `who`'s
      is left. */
  lemma RemovePriorKeeps(q: seq<Order>, who: Name)
    requires SingleOrders(q)
    ensures SingleOrders(RemovePrior(q, who))
    ensures forall k :: 0 <= k < |RemovePrior(q, who)| ==> RemovePrior(q, who)[k].trader != who
  {
    var i := FindIndex(q, who);
    if i != -1 {
      var r := q[..i] + q[i + 1..];
      DeleteIndex(q, i);
      forall a, b | 0 <= a < b < |r|
        ensures r[a].trader != r[b].trader
      {
        var a', b' := if a < i then a else a + 1, if b < i then b else b + 1;
        assert r[a] == q[a'] && r[b] == q[b'];
      }
      forall k | 0 <= k < |r|
        ensures r[k].trader != who
      {
        var k' := if k < i then k else k + 1;
        assert r[k] == q[k'];
      }
    }
  }

  /** _place's removal and re-push without its quantity test: drop the
      trader's earlier order, push the new one and re-sort. */
  function Replace(side: Side, q: seq<Order>, o: Order): seq<Order> {
    SortByPrice(side, RemovePrior(q, o.trader) + [o])
  }

  /** _place's removal and re-push: remove the trader's earlier order on
      this side, then, for a positive quantity, push the new order and
      re-sort. */
  function Requeue(side: Side, q: seq<Order>, o: Order): (r: seq<Order>)
    ensures |r| == |RemovePrior(q, o.trader)| + if o.quantity > 0 then 1 else 0
  {
    if o.quantity > 0 then Replace(side, q, o) else RemovePrior(q, o.trader)
  }

  /** A replacement adds no order but the new one. */
  lemma ReplaceMembers(side: Side, q: seq<Order>, o: Order)
    ensures forall x :: x in Replace(side, q, o) ==> x in q || x == o
  {
    var rest := RemovePrior(q, o.trader);
    RemovePriorSubset(q, o.trader);
    SortByPricePerm(side, rest + [o]);
    forall x | x in Replace(side, q, o)
      ensures x in q || x == o
    {
      assert x in multiset(rest + [o]);
      assert x in rest + [o];
    }
  }

  /** Requeue adds no order but the new one, and that only when its quantity
      is positive. */
  lemma RequeueMembers(side: Side, q: seq<Order>, o: Order)
    ensures forall x :: x in Requeue(side, q, o) ==> x in q || (x == o && o.quantity > 0)
  {
    RemovePriorSubset(q, o.trader);
    ReplaceMembers(side, q, o);
  }

  /** Selecting from an insertion: o joins the selection at its slot. */
  lemma InsertFilter(side: Side, q: seq<Order>, o: Order, c: Criterion)
    ensures var j := Slot(side, q, o);
      Filter(Insert(side, q, o), c) == Filter(q[..j], c) + Filter([o], c) + Filter(q[j..], c)
  {
    var j := Slot(side, q, o);
    FilterAppend(q[..j] + [o], q[j..], c);
    FilterAppend(q[..j], [o], c);
  }

  /** Inserting an order of a trader with no order in q adds one trader. */
  lemma InsertSingle(side: Side, q: seq<Order>, o: Order)
    requires SingleOrders(q)
    requires forall k :: 0 <= k < |q| ==> q[k].trader != o.trader
    ensures SingleOrders(Insert(side, q, o))
  {
    var j := Slot(side, q, o);
    var r := Insert(side, q, o);
    assert forall k :: 0 <= k < |r| ==> r[k] == if k < j then q[k] else if k == j then o else q[k - 1];
    forall a, b | 0 <= a < b < |r|
      ensures r[a].trader != r[b].trader
    {
      if a != j && b != j {
        var a', b' := if a < j then a else a - 1, if b < j then b else b - 1;
        assert r[a] == q[a'] && r[b] == q[b'];
      }
    }
  }

  /** Inserting o leaves the orders of everybody else in order. */
  lemma InsertOthers(side: Side, q: seq<Order>, o: Order)
    ensures Filter(Insert(side, q, o), NotBy(o.trader)) == Filter(q, NotBy(o.trader))
  {
    var c := NotBy(o.trader);
    var j := Slot(side, q, o);
    var A, B := Filter(q[..j], c), Filter(q[j..], c);
    InsertFilter(side, q, o, c);
    FilterSingle(o, c);
    assert Filter(Insert(side, q, o), c) == A + B by {
      assert A + [] + B == A + B;
    }
    FilterAppend(q[..j], q[j..], c);
    assert q[..j] + q[j..] == q;
  }

  /** Inserting the order of a trader with none in q gives it that order only. */
  lemma InsertOwn(side: Side, q: seq<Order>, o: Order)
    requires forall k :: 0 <= k < |q| ==> q[k].trader != o.trader
    ensures Filter(Insert(side, q, o), By(o.trader)) == [o]
  {
    var j := Slot(side, q, o);
    var front, back := q[..j], q[j..];
    InsertFilter(side, q, o, By(o.trader));
    assert forall k :: 0 <= k < |front| ==> front[k] == q[k];
    FilterNone(front, By(o.trader));
    assert forall k :: 0 <= k < |back| ==> back[k] == q[j + k];
    FilterNone(back, By(o.trader));
    FilterSingle(o, By(o.trader));
  }

  /** After a replacement the queue is still sorted, holds exactly the new
      order of its trader, and everybody else's orders are untouched and in
      the same order. */
  lemma ReplaceSpec(side: Side, q: seq<Order>, o: Order)
    requires Sorted(side, q) && SingleOrders(q)
    ensures Sorted(side, Replace(side, q, o)) && SingleOrders(Replace(side, q, o))
    ensures Filter(Replace(side, q, o), By(o.trader)) == [o]
    ensures Filter(Replace(side, q, o), NotBy(o.trader)) == Filter(q, NotBy(o.trader))
  {
    var who := o.trader;
    var rest := RemovePrior(q, who);
    RemovePriorSorted(side, q, who);
    RemovePriorKeeps(q, who);
    RemovePriorOthers(q, who);
    PushSort(side, rest, o);
    InsertSorted(side, rest, o);
    InsertSingle(side, rest, o);
    InsertOwn(side, rest, o);
    InsertOthers(side, rest, o);
  }

  /** The same after _place's step: a positive quantity replaces the
      trader's order, a zero quantity only cancels it. */
  lemma RequeueSpec(side: Side, q: seq<Order>, o: Order)
    requires Sorted(side, q) && SingleOrders(q)
    ensures Sorted(side, Requeue(side, q, o)) && SingleOrders(Requeue(side, q, o))
    ensures Filter(Requeue(side, q, o), By(o.trader)) == if o.quantity > 0 then [o] else []
    ensures Filter(Requeue(side, q, o), NotBy(o.trader)) == Filter(q, NotBy(o.trader))
  {
    if o.quantity > 0 {
      ReplaceSpec(side, q, o);
    } else {
      RemovePriorSorted(side, q, o.trader);
      RemovePriorKeeps(q, o.trader);
      RemovePriorOthers(q, o.trader);
      FilterNone(RemovePrior(q, o.trader), By(o.trader));
    }
  }

  /** The holdings test exactly as the source parses it:
      (kind is ask and the holding is falsy) or the holding is below q.
      An absent holding compares false with `<`, so a bid is refused too
      when the trader has an entry for the stock (even 0) below the
      quantity it asks to buy. */
  predicate LacksStock(side: Side, owns: map<Name, int>, stock: Name, quantity: int) {
    || (side == Ask && (stock !in owns || owns[stock] == 0))
    || (stock in owns && owns[stock] < quantity)
  }

  /** _place: validate, then replace the trader's order on one side of one
      stock. A zero quantity cancels and skips the funding checks. */
  function Place(m: Market, token: Token, stock: Name, price: int, quantity: int, side: Side, now: int): (r: Result<Market>)
    ensures Resolve(m.tokens, token, now).Err? ==> r == Err(Resolve(m.tokens, token, now).error)
    ensures r.Ok? <==>
      && Resolve(m.tokens, token, now).Ok?
      && var who := Resolve(m.tokens, token, now).value;
      && who in m.traders && stock in m.stocks && price >= 0 && quantity >= 0
      && (quantity > 0 ==> !LacksStock(side, m.traders[who].owns, stock, quantity))
      && (quantity > 0 && side == Bid ==> m.traders[who].money >= price * quantity)
    ensures r.Ok? ==>
      && r.value.traders == m.traders && r.value.tokens == m.tokens
      && r.value.transactions == m.transactions
      && r.value.stocks.Keys == m.stocks.Keys
      && (forall s :: s in m.stocks && s != stock ==> r.value.stocks[s] == m.stocks[s])
      && r.value.stocks[stock].Queue(side.Opposite()) == m.stocks[stock].Queue(side.Opposite())
  {
    var who :- Resolve(m.tokens, token, now);
    if who !in m.traders then Err(NoSuchTrader)
    else if stock !in m.stocks then Err(NoSuchStock)
    else if price < 0 then Err(BadPrice)
    else if quantity < 0 then Err(BadQuantity)
    else if quantity > 0 && LacksStock(side, m.traders[who].owns, stock, quantity) then Err(NotEnoughStock)
    else if quantity > 0 && side == Bid && m.traders[who].money < price * quantity then Err(NotEnoughMoney)
    else
      var st := m.stocks[stock];
      var q := Requeue(side, st.Queue(side), Order(who, price, quantity, now));
      Ok(m.(stocks := m.stocks[stock := st.WithQueue(side, q)]))
  }

  /** placeBid: the bid side of _place. As parsed, the holdings test also
      applies to a bid: a trader with an entry for the stock (even 0) below
      the quantity the bid asks for is refused. */
  function PlaceBid(m: Market, token: Token, stock: Name, price: int, quantity: int, now: int): (r: Result<Market>)
    ensures r.Ok? <==>
      && Resolve(m.tokens, token, now).Ok?
      && var who := Resolve(m.tokens, token, now).value;
      && who in m.traders && stock in m.stocks && price >= 0 && quantity >= 0
      && (quantity > 0 && stock in m.traders[who].owns ==> m.traders[who].owns[stock] >= quantity)
      && (quantity > 0 ==> m.traders[who].money >= price * quantity)
    ensures r.Ok? ==> stock in m.stocks && stock in r.value.stocks && r.value.stocks[stock].asks == m.stocks[stock].asks && r.value.traders == m.traders
  {
    Place(m, token, stock, price, quantity, Bid, now)
  }

  /** placeAsk: the ask side of _place. A positive ask needs that many
      shares and no cash. */
  function PlaceAsk(m: Market, token: Token, stock: Name, price: int, quantity: int, now: int): (r: Result<Market>)
    ensures r.Ok? <==>
      && Resolve(m.tokens, token, now).Ok?
      && var who := Resolve(m.tokens, token, now).value;
      && who in m.traders && stock in m.stocks && price >= 0 && quantity >= 0
      && (quantity > 0 ==> Holding(m.traders[who].owns, stock) >= quantity)
    ensures r.Ok? ==> stock in m.stocks && stock in r.value.stocks && r.value.stocks[stock].bids == m.stocks[stock].bids && r.value.traders == m.traders
  {
    Place(m, token, stock, price, quantity, Ask, now)
  }

  /** Which error a refused placement reports, checked in the source's order. */
  lemma PlaceErrors(m: Market, token: Token, stock: Name, price: int, quantity: int, side: Side, now: int)
    requires Resolve(m.tokens, token, now).Ok?
    ensures var who := Resolve(m.tokens, token, now).value;
      var r := Place(m, token, stock, price, quantity, side, now);
      && (who !in m.traders ==> r == Err(NoSuchTrader))
      && (who in m.traders && stock !in m.stocks ==> r == Err(NoSuchStock))
      && (who in m.traders && stock in m.stocks && price < 0 ==> r == Err(BadPrice))
      && (who in m.traders && stock in m.stocks && price >= 0 && quantity < 0 ==> r == Err(BadQuantity))
      && ((who in m.traders && stock in m.stocks && price >= 0 && quantity > 0
           && LacksStock(side, m.traders[who].owns, stock, quantity)) ==> r == Err(NotEnoughStock))
      && ((who in m.traders && stock in m.stocks && price >= 0 && quantity > 0 && side == Bid
           && !LacksStock(side, m.traders[who].owns, stock, quantity)
           && m.traders[who].money < price * quantity) ==> r == Err(NotEnoughMoney))
  {
  }

  /** After a successful placement, on the side placed, the trader has exactly
      the new order (none for quantity 0) and everybody else's orders are as
      before, provided the queue was sorted with one order per trader. */
  lemma PlaceReplaces(m: Market, token: Token, stock: Name, price: int, quantity: int, side: Side, now: int)
    requires Place(m, token, stock, price, quantity, side, now).Ok?
    requires Sorted(side, m.stocks[stock].Queue(side)) && SingleOrders(m.stocks[stock].Queue(side))
    ensures var who := Resolve(m.tokens, token, now).value;
      var q := Place(m, token, stock, price, quantity, side, now).value.stocks[stock].Queue(side);
      && Sorted(side, q) && SingleOrders(q)
      && Filter(q, By(who)) == (if quantity > 0 then [Order(who, price, quantity, now)] else [])
      && Filter(q, NotBy(who)) == Filter(m.stocks[stock].Queue(side), NotBy(who))
  {
    var who := Resolve(m.tokens, token, now).value;
    RequeueSpec(side, m.stocks[stock].Queue(side), Order(who, price, quantity, now));
  }

  /** Every resting order names a registered trader. */
  predicate Known(q: seq<Order>, traders: map<Name, Trader>) {
    forall i :: 0 <= i < |q| ==> q[i].trader in traders
  }

  /** Every resting order wants a positive quantity at a non-negative price. */
  predicate Positive(q: seq<Order>) {
    forall i :: 0 <= i < |q| ==> q[i].quantity > 0 && q[i].price >= 0
  }

  /** The shape every queue keeps: sorted, one order per trader, positive
      quantities at non-negative prices, registered traders. */
  predicate QueueOk(side: Side, q: seq<Order>, traders: map<Name, Trader>) {
    Sorted(side, q) && SingleOrders(q) && Positive(q) && Known(q, traders)
  }

  predicate BookOk(st: Stock, traders: map<Name, Trader>) {
    QueueOk(Bid, st.bids, traders) && QueueOk(Ask, st.asks, traders)
  }

  predicate Wellformed(m: Market) {
    forall s :: s in m.stocks ==> BookOk(m.stocks[s], m.traders)
  }

  /** Placement keeps every book well formed. */
  lemma PlaceKeepsWellformed(m: Market, token: Token, stock: Name, price: int, quantity: int, side: Side, now: int)
    requires Wellformed(m)
    requires Place(m, token, stock, price, quantity, side, now).Ok?
    ensures Wellformed(Place(m, token, stock, price, quantity, side, now).value)
  {
    var who := Resolve(m.tokens, token, now).value;
    var st := m.stocks[stock];
    var o := Order(who, price, quantity, now);
    RequeueSpec(side, st.Queue(side), o);
    RequeueMembers(side, st.Queue(side), o);
    var q := Requeue(side, st.Queue(side), o);
    assert QueueOk(side, q, m.traders) by {
      forall i | 0 <= i < |q|
        ensures q[i].quantity > 0 && q[i].price >= 0 && q[i].trader in m.traders
      {
        assert q[i] in q;
        if q[i] != o {
          var k :| 0 <= k < |st.Queue(side)| && st.Queue(side)[k] == q[i];
        }
      }
    }
    assert st.WithQueue(side, q).Queue(side) == q;
    var st' := st.WithQueue(side, q);
    assert BookOk(st', m.traders) by {
      match side
      case Bid =>
      case Ask =>
    }
  }

  /** Registration, login and logout leave every book well formed. */
  lemma AccountsKeepWellformed(m: Market, name: Name, password: string, money: int, now: int, newToken: Token, token: Token)
    requires Wellformed(m) && newToken !in m.tokens
    ensures Register(m, name, password, money, now, newToken).Ok? ==> Wellformed(Register(m, name, password, money, now, newToken).value.0)
    ensures Login(m, name, password, now, newToken).Ok? ==> Wellformed(Login(m, name, password, now, newToken).value.0)
    ensures Wellformed(Logout(m, token))
  {
    if Register(m, name, password, money, now, newToken).Ok? {
      var m' := Register(m, name, password, money, now, newToken).value.0;
      forall s | s in m'.stocks
        ensures BookOk(m'.stocks[s], m'.traders)
      {
        assert BookOk(m.stocks[s], m.traders);
      }
    }
  }
}

=== FILE: draft.dfy ===
/** The earlier draft of the exchange core (src/stock.js): the same API, but
    placement never checks funds and never cancels, and the matching loop has
    no emptiness guard and no re-validation. It is modelled to set it against
    the released core. */
module Draft {
  import opened Types
  import opened Sums
  import opened Sessions
  import opened Ledger
  import opened Book
  import opened Matching

  /** The draft's _place: the released core's checks up to the quantity,
      then the trader's earlier order is replaced, whatever the quantity. */
  function DraftPlace(m: Market, token: Token, stock: Name, price: int, quantity: int, side: Side, now: int): (r: Result<Market>)
    ensures Resolve(m.tokens, token, now).Err? ==> r == Err(Resolve(m.tokens, token, now).error)
    ensures r.Ok? <==>
      && Resolve(m.tokens, token, now).Ok?
      && var who := Resolve(m.tokens, token, now).value;
      && who in m.traders && stock in m.stocks && price >= 0 && quantity >= 0
    ensures r.Ok? ==>
      && r.value.traders == m.traders && r.value.tokens == m.tokens
      && r.value.transactions == m.transactions
      && r.value.stocks.Keys == m.stocks.Keys
      && (forall s :: s in m.stocks && s != stock ==> r.value.stocks[s] == m.stocks[s])
      && r.value.stocks[stock].Queue(side.Opposite()) == m.stocks[stock].Queue(side.Opposite())
  {
    var who :- Resolve(m.tokens, token, now);
    if who !in m.traders then Err(NoSuchTrader)
    else if stock !in m.stocks then Err(NoSuchStock)
    else if price < 0 then Err(BadPrice)
    else if quantity < 0 then Err(BadQuantity)
    else
      var st := m.stocks[stock];
      var q := Replace(side, st.Queue(side), Order(who, price, quantity, now));
      Ok(m.(stocks := m.stocks[stock := st.WithQueue(side, q)]))
  }

  /** The draft refuses what the released core refuses, except for the two
      funding refusals, and for a positive quantity it places exactly what
      the released core places. */
  lemma DraftPlaceAgrees(m: Market, token: Token, stock: Name, price: int, quantity: int, side: Side, now: int)
    ensures var p := Place(m, token, stock, price, quantity, side, now);
      var d := DraftPlace(m, token, stock, price, quantity, side, now);
      && (p.Err? && p.error != NotEnoughStock && p.error != NotEnoughMoney ==> d == p)
      && (d.Ok? && p.Err? ==> p.error == NotEnoughStock || p.error == NotEnoughMoney)
      && (p.Ok? ==> d.Ok?)
      && (p.Ok? && quantity > 0 ==> d == p)
  {
    var p := Place(m, token, stock, price, quantity, side, now);
    if p.Ok? && quantity > 0 {
      var who := Resolve(m.tokens, token, now).value;
      assert Requeue(side, m.stocks[stock].Queue(side), Order(who, price, quantity, now))
        == Replace(side, m.stocks[stock].Queue(side), Order(who, price, quantity, now));
    }
  }

  /** The draft keeps the queue sorted, whatever order it was in before. */
  lemma DraftPlaceSorted(m: Market, token: Token, stock: Name, price: int, quantity: int, side: Side, now: int)
    requires DraftPlace(m, token, stock, price, quantity, side, now).Ok?
    ensures Sorted(side, DraftPlace(m, token, stock, price, quantity, side, now).value.stocks[stock].Queue(side))
  {
    var who := Resolve(m.tokens, token, now).value;
    var q := m.stocks[stock].Queue(side);
    SortByPriceSorted(side, RemovePrior(q, who) + [Order(who, price, quantity, now)]);
  }

  /** A zero quantity rests in the draft's book, where the released core
      cancels: on a sorted queue with one order per trader the draft leaves
      the trader exactly the new order, the released core none. */
  lemma DraftZeroRests(m: Market, token: Token, stock: Name, price: int, side: Side, now: int)
    requires DraftPlace(m, token, stock, price, 0, side, now).Ok?
    requires Sorted(side, m.stocks[stock].Queue(side)) && SingleOrders(m.stocks[stock].Queue(side))
    ensures var who := Resolve(m.tokens, token, now).value;
      var q := DraftPlace(m, token, stock, price, 0, side, now).value.stocks[stock].Queue(side);
      var q' := Place(m, token, stock, price, 0, side, now).value.stocks[stock].Queue(side);
      && Place(m, token, stock, price, 0, side, now).Ok?
      && Filter(q, By(who)) == [Order(who, price, 0, now)]
      && Filter(q', By(who)) == []
      && Filter(q, NotBy(who)) == Filter(q', NotBy(who))
  {
    var who := Resolve(m.tokens, token, now).value;
    var o := Order(who, price, 0, now);
    ReplaceSpec(side, m.stocks[stock].Queue(side), o);
    RequeueSpec(side, m.stocks[stock].Queue(side), o);
  }

  /** The draft's transaction record has no stock name. */
  datatype DraftTrade = DraftTrade(from: Name, to: Name, quantity: int, price: int, when: int)

  /** What the draft's loop for one stock reads and writes. */
  datatype DraftClearing = DraftClearing(traders: map<Name, Trader>, book: Stock, log: seq<DraftTrade>)

  /** How a run of the draft's step ends: normally, or with a TypeError
      thrown part-way, keeping every change made before it. */
  datatype Outcome<T> = Finished(state: T) | Crashed(state: T)

  predicate DraftKnown(c: DraftClearing) {
    Known(c.book.bids, c.traders) && Known(c.book.asks, c.traders)
  }

  /** The heads of a book are both there and do not cross: the only state
      the draft's loop leaves without an exception. */
  predicate Apart(book: Stock) {
    |book.bids| > 0 && |book.asks| > 0 && book.bids[0].price < book.asks[0].price
  }

  /** The draft's do-while loop for one stock. Reading the price of a head
      of an empty queue throws; so does the assignment to the `const` head
      binding that a partial fill reaches, after the trade is logged and
      before anything is paid. Only a pair whose quantities are equal
      settles and lets the loop go on. */
  function DraftMatch(c: DraftClearing, name: Name, now: int): (r: Outcome<DraftClearing>)
    requires DraftKnown(c)
    ensures DraftKnown(r.state)
    ensures r.state.traders.Keys == c.traders.Keys
    ensures |c.log| <= |r.state.log| && r.state.log[..|c.log|] == c.log
    ensures r.Finished? ==> Apart(r.state.book)
    ensures Apart(c.book) ==> r == Finished(c)
    decreases |c.book.bids|
  {
    var b, a := c.book.bids, c.book.asks;
    if |b| == 0 || |a| == 0 then Crashed(c)
    else if b[0].price < a[0].price then Finished(c)
    else
      var t := DraftTrade(a[0].trader, b[0].trader, Min(a[0].quantity, b[0].quantity), a[0].price, now);
      var log := c.log + [t];
      if b[0].quantity != t.quantity then Crashed(c.(log := log))
      else if a[0].quantity != t.quantity then
        assert Known(b[1..], c.traders) by {
          forall i | 0 <= i < |b[1..]|
            ensures b[1..][i].trader in c.traders
          {
            assert b[1..][i] == b[i + 1];
          }
        }
        Crashed(DraftClearing(c.traders, Stock(b[1..], a), log))
      else
        var c' := DraftClearing(Transfer(c.traders, t.from, t.to, name, t.price * t.quantity, t.quantity), Stock(b[1..], a[1..]), log);
        assert DraftKnown(c') by {
          forall i | 0 <= i < |b[1..]|
            ensures b[1..][i].trader in c'.traders
          {
            assert b[1..][i] == b[i + 1];
          }
          forall i | 0 <= i < |a[1..]|
            ensures a[1..][i].trader in c'.traders
          {
            assert a[1..][i] == a[i + 1];
          }
        }
        var r := DraftMatch(c', name, now);
        assert r.state.log[..|c.log|] == r.state.log[..|c'.log|][..|c.log|];
        r
  }

  /** Whenever the heads cross, the draft logs the head pair's trade at the
      ask price for the smaller head quantity, with no check of the parties
      at all. */
  lemma DraftFirstTrade(c: DraftClearing, name: Name, now: int)
    requires DraftKnown(c)
    requires |c.book.bids| > 0 && |c.book.asks| > 0
    requires c.book.bids[0].price >= c.book.asks[0].price
    ensures var b, a := c.book.bids, c.book.asks;
      var r := DraftMatch(c, name, now);
      && |r.state.log| > |c.log|
      && r.state.log[|c.log|] == DraftTrade(a[0].trader, b[0].trader, Min(a[0].quantity, b[0].quantity), a[0].price, now)
  {
    var b, a := c.book.bids, c.book.asks;
    var t := DraftTrade(a[0].trader, b[0].trader, Min(a[0].quantity, b[0].quantity), a[0].price, now);
    var r := DraftMatch(c, name, now);
    assert r.state.log[..|c.log| + 1] == c.log + [t];
    assert r.state.log[|c.log|] == r.state.log[..|c.log| + 1][|c.log|];
  }

  /** A partial fill ends the draft's tick: the trade is in the log, but no
      cash or share has moved, and the unfilled head keeps its stored
      quantity. */
  lemma DraftPartialFill(c: DraftClearing, name: Name, now: int)
    requires DraftKnown(c)
    requires |c.book.bids| > 0 && |c.book.asks| > 0
    requires c.book.bids[0].price >= c.book.asks[0].price
    requires c.book.bids[0].quantity != c.book.asks[0].quantity
    ensures var b, a := c.book.bids, c.book.asks;
      var r := DraftMatch(c, name, now);
      && r.Crashed?
      && r.state.traders == c.traders
      && r.state.log == c.log + [DraftTrade(a[0].trader, b[0].trader, Min(a[0].quantity, b[0].quantity), a[0].price, now)]
      && (b[0].quantity > a[0].quantity ==> r.state.book == c.book)
      && (b[0].quantity < a[0].quantity ==> r.state.book == Stock(b[1..], a))
  {
  }

  /** The draft's loop moves cash and shares only between the parties of a
      trade: the cash total and every share total are kept, however it
      ends. */
  lemma {:induction false} DraftMatchConserves(c: DraftClearing, name: Name, now: int, s: Name)
    requires DraftKnown(c)
    ensures TotalMoney(DraftMatch(c, name, now).state.traders) == TotalMoney(c.traders)
    ensures TotalShares(DraftMatch(c, name, now).state.traders, s) == TotalShares(c.traders, s)
    decreases |c.book.bids|
  {
    var b, a := c.book.bids, c.book.asks;
    if |b| > 0 && |a| > 0 && b[0].price >= a[0].price && b[0].quantity == a[0].quantity {
      var t := DraftTrade(a[0].trader, b[0].trader, Min(a[0].quantity, b[0].quantity), a[0].price, now);
      var c' := DraftClearing(Transfer(c.traders, t.from, t.to, name, t.price * t.quantity, t.quantity), Stock(b[1..], a[1..]), c.log + [t]);
      assert DraftMatch(c, name, now) == DraftMatch(c', name, now);
      TransferConserves(c.traders, t.from, t.to, name, t.price * t.quantity, t.quantity, s);
      DraftMatchConserves(c', name, now, s);
    }
  }

  /** With no re-validation the draft lets a trader with no shares sell
      and go negative; once the only pair is used up the loop reads an empty
      queue and throws. */
  lemma DraftOversells()
    ensures var c := DraftClearing(
        map["s" := Trader(0, "", map[]), "b" := Trader(10, "", map[])],
        Stock([Order("b", 5, 1, 0)], [Order("s", 5, 1, 0)]), []);
      var r := DraftMatch(c, "XYZ", 7);
      && r.Crashed?
      && r.state.log == [DraftTrade("s", "b", 1, 5, 7)]
      && r.state.traders["s"].owns == map["XYZ" := -1]
      && r.state.traders["b"].money == 5
  {
    var c := DraftClearing(
        map["s" := Trader(0, "", map[]), "b" := Trader(10, "", map[])],
        Stock([Order("b", 5, 1, 0)], [Order("s", 5, 1, 0)]), []);
    var t := DraftTrade("s", "b", 1, 5, 7);
    var c' := DraftClearing(Transfer(c.traders, "s", "b", "XYZ", 5, 1), Stock([], []), [t]);
    assert [Order("b", 5, 1, 0)][1..] == [];
    assert DraftMatch(c, "XYZ", 7) == DraftMatch(c', "XYZ", 7);
    assert DraftMatch(c', "XYZ", 7) == Crashed(c');
  }

  /** The draft's whole market, as its step sees it. */
  datatype DraftExchange = DraftExchange(stocks: map<Name, Stock>, traders: map<Name, Trader>, log: seq<DraftTrade>)

  predicate DraftKnownBooks(x: DraftExchange) {
    forall s :: s in x.stocks ==> Known(x.stocks[s].bids, x.traders) && Known(x.stocks[s].asks, x.traders)
  }

  function DraftClearingOf(x: DraftExchange, name: Name): DraftClearing
    requires name in x.stocks
  {
    DraftClearing(x.traders, x.stocks[name], x.log)
  }

  /** The draft's step: each listed stock in turn, the first exception
      ending the tick. */
  function DraftStep(x: DraftExchange, names: seq<Name>, now: int): (r: Outcome<DraftExchange>)
    requires forall i :: 0 <= i < |names| ==> names[i] in x.stocks
    requires DraftKnownBooks(x)
    ensures r.state.stocks.Keys == x.stocks.Keys && r.state.traders.Keys == x.traders.Keys
    ensures forall s :: s in x.stocks && s !in names ==> r.state.stocks[s] == x.stocks[s]
    ensures r.Finished? ==> forall i :: 0 <= i < |names| ==> Apart(r.state.stocks[names[i]])
    decreases |names|
  {
    if |names| == 0 then Finished(x)
    else
      var name := names[0];
      var o := DraftMatch(DraftClearingOf(x, name), name, now);
      var x' := DraftExchange(x.stocks[name := o.state.book], o.state.traders, o.state.log);
      if o.Crashed? then Crashed(x')
      else
        assert DraftKnownBooks(x');
        var r := DraftStep(x', names[1..], now);
        assert forall i :: 1 <= i < |names| ==> names[i] == names[1..][i - 1];
        r
  }

  /** When the first listed stock has an empty queue, the draft's tick ends
      at once and no later stock is matched, where the released core just
      moves on. */
  lemma DraftEmptyQueueCrashes(x: DraftExchange, names: seq<Name>, now: int)
    requires forall i :: 0 <= i < |names| ==> names[i] in x.stocks
    requires DraftKnownBooks(x)
    requires |names| > 0 && (|x.stocks[names[0]].bids| == 0 || |x.stocks[names[0]].asks| == 0)
    ensures DraftStep(x, names, now) == Crashed(x)
  {
    assert x.stocks[names[0] := x.stocks[names[0]]] == x.stocks;
  }

  /** Whichever listed stock has an empty queue, the draft's tick cannot
      finish: it crashes there, or at an earlier stock. */
  lemma {:induction false} DraftEmptyQueueAnywhere(x: DraftExchange, names: seq<Name>, now: int, i: int)
    requires forall k :: 0 <= k < |names| ==> names[k] in x.stocks
    requires DraftKnownBooks(x)
    requires 0 <= i < |names| && (|x.stocks[names[i]].bids| == 0 || |x.stocks[names[i]].asks| == 0)
    requires forall j :: 0 <= j < i ==> names[j] != names[i]
    ensures DraftStep(x, names, now).Crashed?
    decreases |names|
  {
    if i == 0 {
      DraftEmptyQueueCrashes(x, names, now);
    } else {
      var name := names[0];
      var o := DraftMatch(DraftClearingOf(x, name), name, now);
      if o.Finished? {
        var x' := DraftExchange(x.stocks[name := o.state.book], o.state.traders, o.state.log);
        assert DraftKnownBooks(x');
        assert names[1..][i - 1] == names[i];
        assert forall j :: 0 <= j < i - 1 ==> names[1..][j] == names[j + 1];
        assert DraftStep(x, names, now) == DraftStep(x', names[1..], now);
        DraftEmptyQueueAnywhere(x', names[1..], now, i - 1);
      }
    }
  }

  /** A draft tick keeps the cash total and every share total, however it
      ends. */
  lemma {:induction false} DraftStepConserves(x: DraftExchange, names: seq<Name>, now: int, s: Name)
    requires forall i :: 0 <= i < |names| ==> names[i] in x.stocks
    requires DraftKnownBooks(x)
    ensures TotalMoney(DraftStep(x, names, now).state.traders) == TotalMoney(x.traders)
    ensures TotalShares(DraftStep(x, names, now).state.traders, s) == TotalShares(x.traders, s)
    decreases |names|
  {
    if |names| > 0 {
      var name := names[0];
      var o := DraftMatch(DraftClearingOf(x, name), name, now);
      DraftMatchConserves(DraftClearingOf(x, name), name, now, s);
      if o.Finished? {
        var x' := DraftExchange(x.stocks[name := o.state.book], o.state.traders, o.state.log);
        DraftStepConserves(x', names[1..], now, s);
      }
    }
  }
}

=== FILE: ledger.dfy ===
/** Trader accounts: registration, login, logout, status, and the two
    primitive adjustments matching makes (cash and holdings), with the
    cash and share totals they keep. */
module Ledger {
  import opened Types
  import opened Sums
  import opened Sessions

  /** How much of `stock` a trader holds, reading a missing entry as 0. */
  function Holding(owns: map<Name, int>, stock: Name): int {
    if stock in owns then owns[stock] else 0
  }

  /** Adds `delta` to the holding of `stock`, creating the entry when absent. */
  function UpdateOwns(owns: map<Name, int>, stock: Name, delta: int): (r: map<Name, int>)
    ensures r.Keys == owns.Keys + {stock}
    ensures Holding(r, stock) == Holding(owns, stock) + delta
    ensures forall s :: s in owns && s != stock ==> r[s] == owns[s]
  {
    if stock in owns then owns[stock := owns[stock] + delta] else owns[stock := delta]
  }

  /** Adds `delta` to one trader's cash. */
  function Credit(traders: map<Name, Trader>, name: Name, delta: int): (r: map<Name, Trader>)
    requires name in traders
    ensures r.Keys == traders.Keys
  {
    traders[name := traders[name].(money := traders[name].money + delta)]
  }

  /** Adds `delta` to one trader's holding of `stock`. */
  function Move(traders: map<Name, Trader>, name: Name, stock: Name, delta: int): (r: map<Name, Trader>)
    requires name in traders
    ensures r.Keys == traders.Keys
  {
    traders[name := traders[name].(owns := UpdateOwns(traders[name].owns, stock, delta))]
  }

  ghost function Money(traders: map<Name, Trader>): map<Name, int> {
    map k | k in traders :: traders[k].money
  }

  ghost function Shares(traders: map<Name, Trader>, stock: Name): map<Name, int> {
    map k | k in traders :: Holding(traders[k].owns, stock)
  }

  /** Cash summed over all traders. */
  ghost function TotalMoney(traders: map<Name, Trader>): int {
    Sum(Money(traders))
  }

  /** Holdings of one stock summed over all traders. */
  ghost function TotalShares(traders: map<Name, Trader>, stock: Name): int {
    Sum(Shares(traders, stock))
  }

  /** A credit moves the cash total by exactly its amount and no share total. */
  lemma CreditTotals(traders: map<Name, Trader>, name: Name, delta: int, s: Name)
    requires name in traders
    ensures TotalMoney(Credit(traders, name, delta)) == TotalMoney(traders) + delta
    ensures TotalShares(Credit(traders, name, delta), s) == TotalShares(traders, s)
  {
    var r := Credit(traders, name, delta);
    assert Money(r) == Money(traders)[name := traders[name].money + delta];
    SumUpdate(Money(traders), name, traders[name].money + delta);
    assert Shares(r, s) == Shares(traders, s);
  }

  /** A holdings move changes only the moved stock's column of holdings. */
  lemma MoveShares(traders: map<Name, Trader>, name: Name, stock: Name, delta: int, s: Name)
    requires name in traders
    ensures Shares(Move(traders, name, stock, delta), s) ==
      if s == stock then Shares(traders, s)[name := Holding(traders[name].owns, s) + delta]
      else Shares(traders, s)
  {
    var r := Move(traders, name, stock, delta);
    var h := Holding(traders[name].owns, s);
    assert forall k :: k in r ==> Holding(r[k].owns, s) == if k == name && s == stock then h + delta else Holding(traders[k].owns, s);
  }

  /** A holdings move changes that stock's share total by exactly its amount,
      and no other total. */
  lemma MoveTotals(traders: map<Name, Trader>, name: Name, stock: Name, delta: int, s: Name)
    requires name in traders
    ensures TotalMoney(Move(traders, name, stock, delta)) == TotalMoney(traders)
    ensures TotalShares(Move(traders, name, stock, delta), s) == TotalShares(traders, s) + if s == stock then delta else 0
  {
    var r := Move(traders, name, stock, delta);
    assert Money(r) == Money(traders);
    MoveShares(traders, name, stock, delta, s);
    if s == stock {
      SumUpdate(Shares(traders, stock), name, Holding(traders[name].owns, stock) + delta);
    }
  }

  /** registerTrader: a new name with a non-negative amount gets an account
      with no holdings and a first session. */
  function Register(m: Market, name: Name, password: string, money: int, now: int, newToken: Token): (r: Result<(Market, Token)>)
    requires newToken !in m.tokens
    ensures name in m.traders ==> r == Err(TraderExists)
    ensures name !in m.traders && money < 0 ==> r == Err(BadMoney)
    ensures r.Ok? <==> name !in m.traders && money >= 0
    ensures r.Ok? ==>
      var (m', token) := r.value;
      && m'.traders.Keys == m.traders.Keys + {name}
      && m'.traders[name] == Trader(money, password, map[])
      && (forall k :: k in m.traders ==> m'.traders[k] == m.traders[k])
      && token == newToken
      && m'.tokens == Issue(m.tokens, name, now, newToken)
      && m'.tokens.Keys == m.tokens.Keys + {token}
      && (forall t :: t in m.tokens ==> m'.tokens[t] == m.tokens[t])
      && Resolve(m'.tokens, token, now) == Ok(name)
      && m'.stocks == m.stocks && m'.transactions == m.transactions
  {
    if name in m.traders then Err(TraderExists)
    else if money < 0 then Err(BadMoney)
    else
      var m' := m.(traders := m.traders[name := Trader(money, password, map[])]);
      Ok((m'.(tokens := Issue(m.tokens, name, now, newToken)), newToken))
  }

  /** loginTrader: the right password for an existing trader opens one more
      session; older sessions stay open. */
  function Login(m: Market, name: Name, password: string, now: int, newToken: Token): (r: Result<(Market, Token)>)
    requires newToken !in m.tokens
    ensures r.Ok? <==> name in m.traders && m.traders[name].password == password
    ensures r.Err? ==> r.error == LoginFailed
    ensures r.Ok? ==>
      var (m', token) := r.value;
      && token == newToken
      && m'.tokens == Issue(m.tokens, name, now, newToken)
      && m'.tokens.Keys == m.tokens.Keys + {token}
      && (forall t :: t in m.tokens ==> m'.tokens[t] == m.tokens[t])
      && Resolve(m'.tokens, token, now) == Ok(name)
      && m'.traders == m.traders && m'.stocks == m.stocks && m'.transactions == m.transactions
  {
    if name !in m.traders || m.traders[name].password != password then Err(LoginFailed)
    else Ok((m.(tokens := Issue(m.tokens, name, now, newToken)), newToken))
  }

  /** logoutTrader. */
  function Logout(m: Market, token: Token): (r: Market)
    ensures r == m.(tokens := Revoke(m.tokens, token))
  {
    m.(tokens := m.tokens - {token})
  }

  datatype Status = Status(money: int, owns: map<Name, int>)

  /** getTraderStatus: cash and holdings of the token's trader, never the
      password. */
  function GetStatus(m: Market, token: Token, now: int): (r: Result<Status>)
    ensures Resolve(m.tokens, token, now).Err? ==> r == Err(Resolve(m.tokens, token, now).error)
    ensures r.Ok? <==> Resolve(m.tokens, token, now).Ok? && Resolve(m.tokens, token, now).value in m.traders
    ensures r.Ok? ==> r.value.money == m.traders[Resolve(m.tokens, token, now).value].money
    ensures r.Ok? ==> r.value.owns == m.traders[Resolve(m.tokens, token, now).value].owns
  {
    var name :- Resolve(m.tokens, token, now);
    if name !in m.traders then Err(NoSuchTrader)
    else Ok(Status(m.traders[name].money, m.traders[name].owns))
  }

  /** A fresh registration can log in again with its password and no other,
      and its status shows the deposit and no holdings. */
  lemma RegisterThenLogin(m: Market, name: Name, password: string, money: int, now: int, t1: Token, t2: Token, other: string)
    requires t1 !in m.tokens && t1 != t2 && t2 !in m.tokens
    requires Register(m, name, password, money, now, t1).Ok?
    requires other != password
    ensures var m' := Register(m, name, password, money, now, t1).value.0;
      && Login(m', name, password, now, t2).Ok?
      && Login(m', name, other, now, t2) == Err(LoginFailed)
      && GetStatus(m', t1, now) == Ok(Status(money, map[]))
  {
  }

  /** A session outlives later logins of the same trader and ends at its
      own logout only. */
  lemma SessionsIndependent(m: Market, name: Name, password: string, now: int, token: Token, newToken: Token, later: int)
    requires newToken !in m.tokens && token in m.tokens
    requires Login(m, name, password, now, newToken).Ok?
    ensures var m' := Login(m, name, password, now, newToken).value.0;
      && Resolve(m'.tokens, token, later) == Resolve(m.tokens, token, later)
      && Resolve(Logout(m', newToken).tokens, token, later) == Resolve(m.tokens, token, later)
      && Resolve(Logout(m', newToken).tokens, newToken, later) == Err(InvalidToken)
  {
  }
}

=== FILE: levels.dfy ===
/** The aggregated order-book view (getStockLOB): each queue collapsed into
    price levels, as _simplifyData computes it, checked against an
    independent definition by maximal equal-price runs. */
module Levels {
  import opened Types
  import opened Book

  /** One row of the aggregated view. */
  datatype Level = Level(price: int, quantity: int)

  function Row(o: Order): Level {
    Level(o.price, o.quantity)
  }

  /** One forEach iteration of _simplifyData. The running row is a dummy at
      price 0 until a row has been emitted and the last emitted row after
      that; a row at the running price is added into it, so quantity added
      to the dummy is never emitted. */
  function Absorb(out: seq<Level>, row: Level): (r: seq<Level>)
    ensures |out| <= |r| <= |out| + 1
  {
    var prev := if |out| == 0 then 0 else out[|out| - 1].price;
    if row.price != prev then out + [row]
    else if |out| == 0 then out
    else out[..|out| - 1] + [Level(prev, out[|out| - 1].quantity + row.quantity)]
  }

  /** _simplifyData: the queue folded left to right through Absorb. */
  function Simplify(q: seq<Order>): (r: seq<Level>)
    ensures |r| <= |q|
    decreases |q|
  {
    if |q| == 0 then []
    else Absorb(Simplify(q[..|q| - 1]), Row(q[|q| - 1]))
  }

  /** Prepends an order to a run list, merging it into the first run when
      the prices agree. */
  function Cons(o: Order, rs: seq<Level>): seq<Level> {
    if |rs| > 0 && rs[0].price == o.price then [Level(o.price, o.quantity + rs[0].quantity)] + rs[1..]
    else [Row(o)] + rs
  }

  /** Appends an order to a run list, merging it into the last run when the
      prices agree. */
  function Snoc(rs: seq<Level>, o: Order): seq<Level> {
    if |rs| > 0 && rs[|rs| - 1].price == o.price then rs[..|rs| - 1] + [Level(o.price, rs[|rs| - 1].quantity + o.quantity)]
    else rs + [Row(o)]
  }

  /** Reference view: the maximal runs of equal price, each as one level
      carrying the run's summed quantity; built from the right. */
  function Runs(q: seq<Order>): seq<Level>
    decreases |q|
  {
    if |q| == 0 then [] else Cons(q[0], Runs(q[1..]))
  }

  /** Drops a leading level at price 0. */
  function DropZeroRun(rs: seq<Level>): seq<Level> {
    if |rs| > 0 && rs[0].price == 0 then rs[1..] else rs
  }

  /** Merging at the front and at the back commute. */
  lemma ConsSnoc(x: Order, rs: seq<Level>, o: Order)
    ensures Snoc(Cons(x, rs), o) == Cons(x, Snoc(rs, o))
  {
    if |rs| >= 2 {
      var c := Cons(x, rs);
      assert c[|c| - 1] == rs[|rs| - 1];
      var s := Snoc(rs, o);
      assert s[0] == rs[0];
      assert s[1..] == Snoc(rs[1..], o);
      assert c[1..] == rs[1..] || c[1..] == rs;
      if rs[0].price == x.price {
        assert c[..|c| - 1] == [c[0]] + rs[1..][..|rs| - 2];
      } else {
        assert c[..|c| - 1] == [c[0]] + rs[..|rs| - 1];
      }
    }
  }

  /** Runs can equally be built from the left. */
  lemma {:induction false} RunsSnoc(q: seq<Order>, o: Order)
    ensures Runs(q + [o]) == Snoc(Runs(q), o)
    decreases |q|
  {
    if |q| == 0 {
      assert [o][1..] == [];
    } else {
      var qo := q + [o];
      assert qo[0] == q[0] && qo[1..] == q[1..] + [o];
      RunsSnoc(q[1..], o);
      ConsSnoc(q[0], Runs(q[1..]), o);
    }
  }

  /** One Absorb step is one Snoc step on the reference runs, up to the
      dropped leading price-0 run. */
  lemma AbsorbDrop(rs: seq<Level>, o: Order)
    ensures Absorb(DropZeroRun(rs), Row(o)) == DropZeroRun(Snoc(rs, o))
  {
    if |rs| >= 2 {
      var s := Snoc(rs, o);
      assert s[0] == rs[0];
      if rs[0].price == 0 {
        var d := rs[1..];
        assert d[|d| - 1] == rs[|rs| - 1];
        assert s[1..] == Snoc(d, o);
      }
    } else if |rs| == 1 {
      assert rs[..0] == [];
    }
  }

  /** _simplifyData is the run view with a leading run at price 0 dropped:
      adjacent equal prices are folded into one level, and an opening price-0
      run disappears into the dummy running row. */
  lemma {:induction false} SimplifyIsRuns(q: seq<Order>)
    ensures Simplify(q) == DropZeroRun(Runs(q))
    decreases |q|
  {
    if |q| > 0 {
      var init, last := q[..|q| - 1], q[|q| - 1];
      assert q == init + [last];
      SimplifyIsRuns(init);
      RunsSnoc(init, last);
      AbsorbDrop(Runs(init), last);
    }
  }

  /** No two adjacent levels share a price. */
  predicate NoRepeats(rs: seq<Level>) {
    forall i :: 0 <= i < |rs| - 1 ==> rs[i].price != rs[i + 1].price
  }

  /** Total quantity of the levels at price p. */
  function LevelTotal(rs: seq<Level>, p: int): int
    decreases |rs|
  {
    if |rs| == 0 then 0 else (if rs[0].price == p then rs[0].quantity else 0) + LevelTotal(rs[1..], p)
  }

  /** Total quantity of the orders at price p. */
  function OrderTotal(q: seq<Order>, p: int): int
    decreases |q|
  {
    if |q| == 0 then 0 else (if q[0].price == p then q[0].quantity else 0) + OrderTotal(q[1..], p)
  }

  /** The first run starts at the first order's price. */
  lemma RunsHead(q: seq<Order>)
    requires |q| > 0
    ensures |Runs(q)| > 0 && Runs(q)[0].price == q[0].price
  {
  }

  /** The reference runs never repeat a price in adjacent levels and keep the
      total quantity at every price. */
  lemma {:induction false} RunsSpec(q: seq<Order>, p: int)
    ensures NoRepeats(Runs(q))
    ensures LevelTotal(Runs(q), p) == OrderTotal(q, p)
    decreases |q|
  {
    if |q| > 0 {
      var rs := Runs(q[1..]);
      RunsSpec(q[1..], p);
      var c := Cons(q[0], rs);
      if |rs| > 0 && rs[0].price == q[0].price {
        assert c[1..] == rs[1..];
        assert LevelTotal(rs, p) == (if rs[0].price == p then rs[0].quantity else 0) + LevelTotal(rs[1..], p);
        forall i | 0 <= i < |c| - 1
          ensures c[i].price != c[i + 1].price
        {
          assert c[i + 1] == rs[i + 1];
          if i > 0 {
            assert c[i] == rs[i];
          }
        }
      } else {
        assert c[1..] == rs;
        forall i | 0 <= i < |c| - 1
          ensures c[i].price != c[i + 1].price
        {
          assert c[i + 1] == rs[i];
          if i > 0 {
            assert c[i] == rs[i - 1];
          }
        }
      }
    }
  }

  /** The view never shows two adjacent levels at one price, and at every
      non-zero price it shows exactly the quantity resting at that price. */
  lemma SimplifySpec(q: seq<Order>, p: int)
    requires p != 0
    ensures NoRepeats(Simplify(q))
    ensures LevelTotal(Simplify(q), p) == OrderTotal(q, p)
  {
    SimplifyIsRuns(q);
    RunsSpec(q, p);
    var rs := Runs(q);
    if |rs| > 0 && rs[0].price == 0 {
      assert LevelTotal(rs, p) == LevelTotal(rs[1..], p);
      assert NoRepeats(rs[1..]) by {
        forall i | 0 <= i < |rs[1..]| - 1
          ensures rs[1..][i].price != rs[1..][i + 1].price
        {
          assert rs[1..][i] == rs[i + 1] && rs[1..][i + 1] == rs[i + 2];
        }
      }
    }
  }

  /** Price strictly better for the side: higher for bids, lower for asks. */
  predicate Better(side: Side, p: int, p': int) {
    AtLeastAsGood(side, p, p') && p != p'
  }

  /** On a sorted queue the runs strictly improve from back to front. */
  lemma {:induction false} RunsStrict(side: Side, q: seq<Order>)
    requires Sorted(side, q)
    ensures forall i :: 0 <= i < |Runs(q)| - 1 ==> Better(side, Runs(q)[i].price, Runs(q)[i + 1].price)
    decreases |q|
  {
    if |q| > 0 {
      var rs := Runs(q[1..]);
      assert Sorted(side, q[1..]) by {
        forall a, b | 0 <= a < b < |q[1..]|
          ensures AtLeastAsGood(side, q[1..][a].price, q[1..][b].price)
        {
          assert q[1..][a] == q[a + 1] && q[1..][b] == q[b + 1];
        }
      }
      RunsStrict(side, q[1..]);
      var c := Cons(q[0], rs);
      if |rs| > 0 {
        RunsHead(q[1..]);
        assert AtLeastAsGood(side, q[0].price, q[1].price);
      }
      if |rs| > 0 && rs[0].price == q[0].price {
        forall i | 0 <= i < |c| - 1
          ensures Better(side, c[i].price, c[i + 1].price)
        {
          assert c[i + 1] == rs[i + 1];
          if i > 0 {
            assert c[i] == rs[i];
          }
        }
      } else {
        forall i | 0 <= i < |c| - 1
          ensures Better(side, c[i].price, c[i + 1].price)
        {
          assert c[i + 1] == rs[i];
          if i > 0 {
            assert c[i] == rs[i - 1];
          }
        }
      }
    }
  }

  /** The view of a sorted queue lists each price once, best first. */
  lemma SimplifySorted(side: Side, q: seq<Order>)
    requires Sorted(side, q)
    ensures forall i :: 0 <= i < |Simplify(q)| - 1 ==> Better(side, Simplify(q)[i].price, Simplify(q)[i + 1].price)
  {
    SimplifyIsRuns(q);
    RunsStrict(side, q);
    var rs := Runs(q);
    if |rs| > 0 && rs[0].price == 0 {
      forall i | 0 <= i < |rs[1..]| - 1
        ensures Better(side, rs[1..][i].price, rs[1..][i + 1].price)
      {
        assert rs[1..][i] == rs[i + 1] && rs[1..][i + 1] == rs[i + 2];
      }
    }
  }

  /** An ask at price 0 rests first in its queue and is then missing from the
      view: an ask at 0 ahead of one at 5 leaves only the level at 5. */
  lemma ZeroAsksHidden(a: Order, b: Order)
    requires a.price == 0 && b.price == 5
    ensures Simplify([a, b]) == [Level(5, b.quantity)]
  {
    assert [a, b][..1] == [a];
    assert [a][..0] == [];
  }

  /** The two aggregated queues of one stock. */
  datatype Lob = Lob(bids: seq<Level>, asks: seq<Level>)

  /** getStockLOB: the aggregated view of a listed stock. */
  function GetStockLob(m: Market, name: Name): (r: Result<Lob>)
    ensures r.Ok? <==> name in m.stocks
    ensures r.Err? ==> r.error == NoSuchStock
    ensures r.Ok? ==> r.value.bids == DropZeroRun(Runs(m.stocks[name].bids))
    ensures r.Ok? ==> r.value.asks == DropZeroRun(Runs(m.stocks[name].asks))
  {
    if name !in m.stocks then Err(NoSuchStock)
    else
      var st := m.stocks[name];
      SimplifyIsRuns(st.bids);
      SimplifyIsRuns(st.asks);
      Ok(Lob(Simplify(st.bids), Simplify(st.asks)))
  }
}

=== FILE: matching.dfy ===
/** The matching tick (step): for each stock, repeatedly pair the head bid
    with the head ask, re-validate the pair, settle it and log it, until the
    heads no longer cross or fail validation. */
module Matching {
  import opened Types
  import opened Sums
  import opened Ledger
  import opened Book

  /** What matching one stock reads and writes. */
  datatype Clearing = Clearing(traders: map<Name, Trader>, book: Stock, log: seq<Transaction>)

  /** Every resting order of the book names a registered trader, so the
      lookups of buyer and seller succeed. */
  predicate KnownBook(c: Clearing) {
    Known(c.book.bids, c.traders) && Known(c.book.asks, c.traders)
  }

  function Min(a: int, b: int): int {
    if a <= b then a else b
  }

  /** The potential trade between the head bid and the head ask: the asker
      sells to the bidder at the ask price, as much as both heads want. */
  function Candidate(book: Stock, name: Name, now: int): (t: Transaction)
    requires |book.bids| > 0 && |book.asks| > 0
    ensures t.quantity <= book.bids[0].quantity && t.quantity <= book.asks[0].quantity
    ensures t.quantity == book.bids[0].quantity || t.quantity == book.asks[0].quantity
  {
    Transaction(book.asks[0].trader, book.bids[0].trader, Min(book.asks[0].quantity, book.bids[0].quantity),
                book.asks[0].price, name, now)
  }

  /** The re-validation of a potential trade: nobody trades with themself,
      the seller holds the shares, and the buyer can pay. */
  predicate Valid(traders: map<Name, Trader>, t: Transaction)
    requires t.from in traders && t.to in traders
    ensures t.from == t.to ==> !Valid(traders, t)
    ensures Holding(traders[t.from].owns, t.stock) < t.quantity ==> !Valid(traders, t)
    ensures traders[t.to].money < t.price * t.quantity ==> !Valid(traders, t)
    ensures Valid(traders, t) || t.from == t.to || Holding(traders[t.from].owns, t.stock) < t.quantity
      || traders[t.to].money < t.price * t.quantity
  {
    && t.from != t.to
    && Holding(traders[t.from].owns, t.stock) >= t.quantity
    && traders[t.to].money >= t.price * t.quantity
  }

  /** The loop goes on: both queues are non-empty, the head pair passes
      validation, and the head bid pays at least the head ask. */
  predicate Crosses(c: Clearing, name: Name, now: int)
    requires KnownBook(c)
  {
    && |c.book.bids| > 0 && |c.book.asks| > 0
    && Valid(c.traders, Candidate(c.book, name, now))
    && c.book.bids[0].price >= c.book.asks[0].price
  }

  /** Takes n off the head order: a used-up head is spliced out, otherwise
      its quantity is lowered in place. */
  function Fill(q: seq<Order>, n: int): (r: seq<Order>)
    requires |q| > 0
    ensures |r| == if q[0].quantity == n then |q| - 1 else |q|
    ensures forall i :: 0 <= i < |r| ==> r[i].trader == q[i + |q| - |r|].trader && r[i].price == q[i + |q| - |r|].price
    ensures forall i :: 0 < i < |r| ==> r[i] == q[i + |q| - |r|]
    ensures q[0].quantity == n ==> r == q[1..]
    ensures q[0].quantity != n ==> r[0] == q[0].(quantity := q[0].quantity - n)
  {
    if q[0].quantity == n then q[1..] else [q[0].(quantity := q[0].quantity - n)] + q[1..]
  }

  /** The transfers of one trade, in the source's order: the seller is
      paid, the buyer pays, the seller's holding drops, the buyer's rises. */
  function Transfer(traders: map<Name, Trader>, seller: Name, buyer: Name, stock: Name, amount: int, quantity: int): (r: map<Name, Trader>)
    requires seller in traders && buyer in traders
    ensures r.Keys == traders.Keys
  {
    var paid := Credit(traders, seller, amount);
    var charged := Credit(paid, buyer, -amount);
    var sold := Move(charged, seller, stock, -quantity);
    Move(sold, buyer, stock, quantity)
  }

  /** The transfers of a trade: price times quantity in cash one way, the
      quantity in shares the other. */
  function Settlement(traders: map<Name, Trader>, t: Transaction): (r: map<Name, Trader>)
    requires t.from in traders && t.to in traders
    ensures r.Keys == traders.Keys
  {
    Transfer(traders, t.from, t.to, t.stock, t.price * t.quantity, t.quantity)
  }

  /** Settles a trade: the transfers, both heads filled, and the trade
      appended to the log. */
  function Execute(c: Clearing, t: Transaction): (r: Clearing)
    requires |c.book.bids| > 0 && |c.book.asks| > 0
    requires t.from in c.traders && t.to in c.traders
    ensures r.traders.Keys == c.traders.Keys
    ensures r.log == c.log + [t]
    ensures r.traders == Settlement(c.traders, t)
    ensures r.book.bids == Fill(c.book.bids, t.quantity) && r.book.asks == Fill(c.book.asks, t.quantity)
    ensures |r.book.bids| == if c.book.bids[0].quantity == t.quantity then |c.book.bids| - 1 else |c.book.bids|
    ensures |r.book.asks| == if c.book.asks[0].quantity == t.quantity then |c.book.asks| - 1 else |c.book.asks|
  {
    Clearing(Settlement(c.traders, t), Stock(Fill(c.book.bids, t.quantity), Fill(c.book.asks, t.quantity)), c.log + [t])
  }

  /** The match loop for one stock; each round fills at least one head
      completely, so the queues shrink and the loop ends. */
  function MatchStock(c: Clearing, name: Name, now: int): (r: Clearing)
    requires KnownBook(c)
    ensures r.traders.Keys == c.traders.Keys
    ensures KnownBook(r)
    ensures !Crosses(r, name, now)
    ensures |c.log| <= |r.log| && r.log[..|c.log|] == c.log
    ensures |r.book.bids| + |r.book.asks| + (|r.log| - |c.log|) <= |c.book.bids| + |c.book.asks|
    ensures |r.log| == |c.log| ==> r == c
    decreases |c.book.bids| + |c.book.asks|
  {
    if !Crosses(c, name, now) then c
    else
      var c' := Execute(c, Candidate(c.book, name, now));
      assert KnownBook(c');
      var r := MatchStock(c', name, now);
      assert r.log[..|c.log|] == r.log[..|c'.log|][..|c.log|];
      r
  }

  /** The first trade of a non-empty round is the head pair, and before it
      the pair crossed, the seller held the shares and the buyer could pay. */
  lemma MatchFirstTrade(c: Clearing, name: Name, now: int)
    requires KnownBook(c)
    requires |MatchStock(c, name, now).log| > |c.log|
    ensures |c.book.bids| > 0 && |c.book.asks| > 0
    ensures var t := MatchStock(c, name, now).log[|c.log|];
      && t.from == c.book.asks[0].trader && t.to == c.book.bids[0].trader && t.from != t.to
      && t.price == c.book.asks[0].price && t.stock == name && t.when == now
      && t.quantity == Min(c.book.asks[0].quantity, c.book.bids[0].quantity)
      && c.book.bids[0].price >= c.book.asks[0].price
      && Holding(c.traders[t.from].owns, name) >= t.quantity
      && c.traders[t.to].money >= t.price * t.quantity
  {
    var c' := Execute(c, Candidate(c.book, name, now));
    assert MatchStock(c', name, now).log[|c.log|] == c'.log[|c.log|];
  }

  /** Settling moves the amount from buyer to seller and the shares from
      seller to buyer, and touches nobody else. */
  lemma SettlementParties(traders: map<Name, Trader>, t: Transaction, k: Name)
    requires t.from in traders && t.to in traders && t.from != t.to
    requires k in traders
    ensures var r := Settlement(traders, t);
      && r[t.from].money == traders[t.from].money + t.price * t.quantity
      && r[t.to].money == traders[t.to].money - t.price * t.quantity
      && Holding(r[t.from].owns, t.stock) == Holding(traders[t.from].owns, t.stock) - t.quantity
      && Holding(r[t.to].owns, t.stock) == Holding(traders[t.to].owns, t.stock) + t.quantity
      && (forall s :: s != t.stock ==> Holding(r[k].owns, s) == Holding(traders[k].owns, s))
      && r[k].password == traders[k].password
      && (k != t.from && k != t.to ==> r[k] == traders[k])
  {
  }

  /** Paying an amount from one trader to another keeps every total. */
  lemma PayConserves(traders: map<Name, Trader>, seller: Name, buyer: Name, amount: int, s: Name)
    requires seller in traders && buyer in traders
    ensures TotalMoney(Credit(Credit(traders, seller, amount), buyer, -amount)) == TotalMoney(traders)
    ensures TotalShares(Credit(Credit(traders, seller, amount), buyer, -amount), s) == TotalShares(traders, s)
  {
    CreditTotals(traders, seller, amount, s);
    CreditTotals(Credit(traders, seller, amount), buyer, -amount, s);
  }

  /** Moving shares from one trader to another keeps the cash total. */
  lemma ShipMoney(traders: map<Name, Trader>, seller: Name, buyer: Name, stock: Name, quantity: int)
    requires seller in traders && buyer in traders
    ensures TotalMoney(Move(Move(traders, seller, stock, -quantity), buyer, stock, quantity)) == TotalMoney(traders)
  {
    var sold := Move(traders, seller, stock, -quantity);
    assert Money(sold) == Money(traders);
    assert Money(Move(sold, buyer, stock, quantity)) == Money(sold);
  }

  /** Moving shares from one trader to another keeps every share total. */
  lemma ShipShares(traders: map<Name, Trader>, seller: Name, buyer: Name, stock: Name, quantity: int, s: Name)
    requires seller in traders && buyer in traders
    ensures TotalShares(Move(Move(traders, seller, stock, -quantity), buyer, stock, quantity), s) == TotalShares(traders, s)
  {
    var sold := Move(traders, seller, stock, -quantity);
    var bought := Move(sold, buyer, stock, quantity);
    assert TotalShares(sold, s) == TotalShares(traders, s) + (if s == stock then -quantity else 0) by {
      MoveTotals(traders, seller, stock, -quantity, s);
    }
    assert TotalShares(bought, s) == TotalShares(sold, s) + (if s == stock then quantity else 0) by {
      MoveTotals(sold, buyer, stock, quantity, s);
    }
  }

  /** Transfers keep the cash total and the share total of every stock. */
  lemma TransferConserves(traders: map<Name, Trader>, seller: Name, buyer: Name, stock: Name, amount: int, quantity: int, s: Name)
    requires seller in traders && buyer in traders
    ensures TotalMoney(Transfer(traders, seller, buyer, stock, amount, quantity)) == TotalMoney(traders)
    ensures TotalShares(Transfer(traders, seller, buyer, stock, amount, quantity), s) == TotalShares(traders, s)
  {
    PayConserves(traders, seller, buyer, amount, s);
    var charged := Credit(Credit(traders, seller, amount), buyer, -amount);
    ShipMoney(charged, seller, buyer, stock, quantity);
    ShipShares(charged, seller, buyer, stock, quantity, s);
  }

  /** Matching keeps the cash total and every share total. */
  lemma {:induction false} MatchConserves(c: Clearing, name: Name, now: int, s: Name)
    requires KnownBook(c)
    ensures TotalMoney(MatchStock(c, name, now).traders) == TotalMoney(c.traders)
    ensures TotalShares(MatchStock(c, name, now).traders, s) == TotalShares(c.traders, s)
    decreases |c.book.bids| + |c.book.asks|
  {
    if Crosses(c, name, now) {
      var t := Candidate(c.book, name, now);
      var c' := Execute(c, t);
      TransferConserves(c.traders, t.from, t.to, t.stock, t.price * t.quantity, t.quantity, s);
      MatchConserves(c', name, now, s);
    }
  }

  /** The trades of a log from position `start` on are each between two
      different traders, for stock `name`, at time `now`. */
  predicate TradesOk(log: seq<Transaction>, start: int, names: seq<Name>, now: int) {
    forall i :: 0 <= start <= i < |log| ==> log[i].from != log[i].to && log[i].stock in names && log[i].when == now
  }

  /** Every trade matching logs is between two different traders, for this
      stock, at this tick. */
  lemma {:induction false} MatchTrades(c: Clearing, name: Name, now: int)
    requires KnownBook(c)
    ensures TradesOk(MatchStock(c, name, now).log, |c.log|, [name], now)
    decreases |c.book.bids| + |c.book.asks|
  {
    if Crosses(c, name, now) {
      var t := Candidate(c.book, name, now);
      assert t.from != t.to && t.stock == name && t.when == now;
      var c' := Execute(c, t);
      var r := MatchStock(c', name, now);
      assert MatchStock(c, name, now) == r;
      MatchTrades(c', name, now);
      assert r.log[|c.log|] == t by {
        assert r.log[..|c'.log|] == c'.log;
        assert r.log[..|c'.log|][|c.log|] == r.log[|c.log|];
      }
      forall i | |c.log| <= i < |r.log|
        ensures r.log[i].from != r.log[i].to && r.log[i].stock in [name] && r.log[i].when == now
      {
        if i > |c.log| {
          assert |c'.log| <= i;
        }
      }
    }
  }

  /** Settling leaves everybody but the two parties alone. */
  lemma SettlementOthers(traders: map<Name, Trader>, t: Transaction, k: Name)
    requires t.from in traders && t.to in traders
    requires k in traders && k != t.from && k != t.to
    ensures Settlement(traders, t)[k] == traders[k]
  {
  }

  /** A trader who is party to no logged trade is left exactly as it was. */
  lemma {:induction false} MatchOthers(c: Clearing, name: Name, now: int, k: Name)
    requires KnownBook(c) && k in c.traders
    requires var r := MatchStock(c, name, now);
      forall i :: |c.log| <= i < |r.log| ==> r.log[i].from != k && r.log[i].to != k
    ensures MatchStock(c, name, now).traders[k] == c.traders[k]
    decreases |c.book.bids| + |c.book.asks|
  {
    if Crosses(c, name, now) {
      var t := Candidate(c.book, name, now);
      var c' := Execute(c, t);
      var r := MatchStock(c', name, now);
      assert MatchStock(c, name, now) == r;
      assert r.log[|c.log|] == t by {
        assert r.log[..|c'.log|] == c'.log;
        assert r.log[..|c'.log|][|c.log|] == r.log[|c.log|];
      }
      SettlementOthers(c.traders, t, k);
      MatchOthers(c', name, now, k);
    }
  }

  /** Filling the head of a well-formed queue keeps it well formed: a partly
      filled head keeps its price and place and a positive quantity. */
  lemma FillKeeps(side: Side, q: seq<Order>, n: int)
    requires |q| > 0 && Sorted(side, q) && SingleOrders(q) && Positive(q)
    requires 0 <= n <= q[0].quantity
    ensures Sorted(side, Fill(q, n)) && SingleOrders(Fill(q, n)) && Positive(Fill(q, n))
  {
    var r := Fill(q, n);
    var d := |q| - |r|;
    forall a, b | 0 <= a < b < |r|
      ensures AtLeastAsGood(side, r[a].price, r[b].price) && r[a].trader != r[b].trader
    {
      assert r[a].price == q[a + d].price && r[b].price == q[b + d].price;
    }
  }

  /** Matching keeps both queues of the book well formed. */
  lemma {:induction false} MatchKeepsBook(c: Clearing, name: Name, now: int)
    requires KnownBook(c)
    requires QueueOk(Bid, c.book.bids, c.traders) && QueueOk(Ask, c.book.asks, c.traders)
    ensures var r := MatchStock(c, name, now);
      QueueOk(Bid, r.book.bids, r.traders) && QueueOk(Ask, r.book.asks, r.traders)
    decreases |c.book.bids| + |c.book.asks|
  {
    if Crosses(c, name, now) {
      var t := Candidate(c.book, name, now);
      var c' := Execute(c, t);
      FillKeeps(Bid, c.book.bids, t.quantity);
      FillKeeps(Ask, c.book.asks, t.quantity);
      MatchKeepsBook(c', name, now);
    }
  }

  /** No trader owes cash or shares. */
  predicate Solvent(traders: map<Name, Trader>) {
    forall k :: k in traders ==> traders[k].money >= 0 && forall s :: s in traders[k].owns ==> traders[k].owns[s] >= 0
  }

  /** A valid trade at a non-negative price and quantity keeps everybody
      solvent. */
  lemma SettlementSolvent(traders: map<Name, Trader>, t: Transaction)
    requires t.from in traders && t.to in traders && Valid(traders, t)
    requires t.price >= 0 && t.quantity >= 0
    requires Solvent(traders)
    ensures Solvent(Settlement(traders, t))
  {
    var r := Settlement(traders, t);
    forall k | k in r
      ensures r[k].money >= 0 && forall s :: s in r[k].owns ==> r[k].owns[s] >= 0
    {
      SettlementParties(traders, t, k);
      assert t.price * t.quantity >= 0;
      forall s | s in r[k].owns
        ensures r[k].owns[s] >= 0
      {
        assert Holding(r[k].owns, s) == r[k].owns[s];
        if s != t.stock || (k != t.from && k != t.to) {
          assert Holding(traders[k].owns, s) >= 0;
        }
      }
    }
  }

  /** With well-formed queues, matching never leaves a trader owing cash or
      shares. */
  lemma {:induction false} MatchSolvent(c: Clearing, name: Name, now: int)
    requires KnownBook(c)
    requires QueueOk(Bid, c.book.bids, c.traders) && QueueOk(Ask, c.book.asks, c.traders)
    requires Solvent(c.traders)
    ensures Solvent(MatchStock(c, name, now).traders)
    decreases |c.book.bids| + |c.book.asks|
  {
    if Crosses(c, name, now) {
      var t := Candidate(c.book, name, now);
      var c' := Execute(c, t);
      SettlementSolvent(c.traders, t);
      FillKeeps(Bid, c.book.bids, t.quantity);
      FillKeeps(Ask, c.book.asks, t.quantity);
      MatchSolvent(c', name, now);
    }
  }

  /** Every book names registered traders only. */
  predicate KnownBooks(m: Market) {
    forall s :: s in m.stocks ==> Known(m.stocks[s].bids, m.traders) && Known(m.stocks[s].asks, m.traders)
  }

  function ClearingOf(m: Market, name: Name): Clearing
    requires name in m.stocks
  {
    Clearing(m.traders, m.stocks[name], m.transactions)
  }

  /** Matching one stock of the market (one forEach iteration of step). */
  function Settle(m: Market, name: Name, now: int): (r: Market)
    requires name in m.stocks && KnownBooks(m)
    ensures KnownBooks(r)
    ensures r.stocks.Keys == m.stocks.Keys && r.traders.Keys == m.traders.Keys && r.tokens == m.tokens
    ensures forall s :: s in m.stocks && s != name ==> r.stocks[s] == m.stocks[s]
    ensures |m.transactions| <= |r.transactions| && r.transactions[..|m.transactions|] == m.transactions
    ensures !Crosses(ClearingOf(r, name), name, now)
  {
    var c := MatchStock(ClearingOf(m, name), name, now);
    var r := m.(traders := c.traders, stocks := m.stocks[name := c.book], transactions := c.log);
    assert ClearingOf(r, name) == c;
    r
  }

  /** step: match every stock, in the order the names are listed. */
  function Step(m: Market, names: seq<Name>, now: int): (r: Market)
    requires forall i :: 0 <= i < |names| ==> names[i] in m.stocks
    requires KnownBooks(m)
    ensures KnownBooks(r)
    ensures r.stocks.Keys == m.stocks.Keys && r.traders.Keys == m.traders.Keys && r.tokens == m.tokens
    ensures |m.transactions| <= |r.transactions| && r.transactions[..|m.transactions|] == m.transactions
    decreases |names|
  {
    if |names| == 0 then m
    else
      var m' := Settle(m, names[0], now);
      var r := Step(m', names[1..], now);
      assert r.transactions[..|m.transactions|] == r.transactions[..|m'.transactions|][..|m.transactions|];
      r
  }

  /** A tick keeps the cash total and every share total. */
  lemma {:induction false} StepConserves(m: Market, names: seq<Name>, now: int, s: Name)
    requires forall i :: 0 <= i < |names| ==> names[i] in m.stocks
    requires KnownBooks(m)
    ensures TotalMoney(Step(m, names, now).traders) == TotalMoney(m.traders)
    ensures TotalShares(Step(m, names, now).traders, s) == TotalShares(m.traders, s)
    decreases |names|
  {
    if |names| > 0 {
      MatchConserves(ClearingOf(m, names[0]), names[0], now, s);
      StepConserves(Settle(m, names[0], now), names[1..], now, s);
    }
  }

  /** Every trade a tick logs is between two different traders, for a
      listed stock, at the tick's time. */
  lemma {:induction false} StepTrades(m: Market, names: seq<Name>, now: int)
    requires forall i :: 0 <= i < |names| ==> names[i] in m.stocks
    requires KnownBooks(m)
    ensures TradesOk(Step(m, names, now).transactions, |m.transactions|, names, now)
    decreases |names|
  {
    if |names| > 0 {
      var name := names[0];
      var m' := Settle(m, name, now);
      var r := Step(m', names[1..], now);
      assert Step(m, names, now) == r;
      MatchTrades(ClearingOf(m, name), name, now);
      assert m'.transactions == MatchStock(ClearingOf(m, name), name, now).log;
      StepTrades(m', names[1..], now);
      forall i | |m.transactions| <= i < |r.transactions|
        ensures r.transactions[i].from != r.transactions[i].to && r.transactions[i].stock in names && r.transactions[i].when == now
      {
        if i < |m'.transactions| {
          assert r.transactions[i] == r.transactions[..|m'.transactions|][i];
          assert m'.transactions[i].stock in [name];
          assert names[0] == name;
        } else {
          assert r.transactions[i].stock in names[1..];
          var j :| 0 <= j < |names[1..]| && names[1..][j] == r.transactions[i].stock;
          assert names[j + 1] == r.transactions[i].stock;
        }
      }
    }
  }

  /** A tick keeps every book well formed. */
  lemma {:induction false} StepKeepsWellformed(m: Market, names: seq<Name>, now: int)
    requires forall i :: 0 <= i < |names| ==> names[i] in m.stocks
    requires Wellformed(m)
    ensures KnownBooks(m)
    ensures Wellformed(Step(m, names, now))
    decreases |names|
  {
    assert KnownBooks(m) by {
      forall s | s in m.stocks
        ensures Known(m.stocks[s].bids, m.traders) && Known(m.stocks[s].asks, m.traders)
      {
        assert BookOk(m.stocks[s], m.traders);
      }
    }
    if |names| > 0 {
      var name := names[0];
      assert BookOk(m.stocks[name], m.traders);
      MatchKeepsBook(ClearingOf(m, name), name, now);
      var m' := Settle(m, name, now);
      assert Wellformed(m') by {
        forall s | s in m'.stocks
          ensures BookOk(m'.stocks[s], m'.traders)
        {
          if s != name {
            assert BookOk(m.stocks[s], m.traders);
          }
        }
      }
      StepKeepsWellformed(m', names[1..], now);
    }
  }

  /** A tick on well-formed books never leaves a trader owing cash or
      shares. */
  lemma {:induction false} StepSolvent(m: Market, names: seq<Name>, now: int)
    requires forall i :: 0 <= i < |names| ==> names[i] in m.stocks
    requires Wellformed(m) && Solvent(m.traders)
    ensures KnownBooks(m)
    ensures Solvent(Step(m, names, now).traders)
    decreases |names|
  {
    StepKeepsWellformed(m, names, now);
    if |names| > 0 {
      var name := names[0];
      assert BookOk(m.stocks[name], m.traders);
      MatchSolvent(ClearingOf(m, name), name, now);
      var m' := Settle(m, name, now);
      StepKeepsWellformed(m, [name], now);
      assert Step(m, [name], now) == Step(m', [], now);
      StepSolvent(m', names[1..], now);
    }
  }

  /** A tick in which no listed stock has a valid crossing head pair
      changes nothing. */
  lemma {:induction false} StepIdle(m: Market, names: seq<Name>, now: int)
    requires forall i :: 0 <= i < |names| ==> names[i] in m.stocks
    requires KnownBooks(m)
    requires forall i :: 0 <= i < |names| ==> !Crosses(ClearingOf(m, names[i]), names[i], now)
    ensures Step(m, names, now) == m
    decreases |names|
  {
    if |names| > 0 {
      var c := ClearingOf(m, names[0]);
      assert MatchStock(c, names[0], now) == c;
      assert Settle(m, names[0], now) == m;
      StepIdle(m, names[1..], now);
    }
  }
}

=== FILE: scenario.dfy ===
/** The example the server bootstraps with (dist/bootstrap.js): one stock,
    five traders with 1000 in cash and 5 shares each, seven placements, and
    the one trade the next tick makes. The exchange starts as the five
    registrations and the direct grants of shares leave it. */
module Scenario {
  import opened Types
  import opened Sessions
  import opened Ledger
  import opened Book
  import opened Matching

  const XYZ: Name := "XYZ"

  /** The five accounts as the bootstrap leaves them: registered with 1000
      in cash and the name as password, then given 5 shares of XYZ by a
      direct write to their holdings. */
  function Accounts(): map<Name, Trader> {
    map[
      "t11" := Trader(1000, "t11", map[XYZ := 5]),
      "t02" := Trader(1000, "t02", map[XYZ := 5]),
      "t08" := Trader(1000, "t08", map[XYZ := 5]),
      "t01" := Trader(1000, "t01", map[XYZ := 5]),
      "t03" := Trader(1000, "t03", map[XYZ := 5])]
  }

  /** The session each registration opened; "k" + name stands for the
      random token. */
  function Opened(now: int): map<Token, TokenData> {
    map[
      "k11" := TokenData("t11", now + TokenDuration),
      "k02" := TokenData("t02", now + TokenDuration),
      "k08" := TokenData("t08", now + TokenDuration),
      "k01" := TokenData("t01", now + TokenDuration),
      "k03" := TokenData("t03", now + TokenDuration)]
  }

  /** The bootstrapped exchange with the given XYZ book. */
  function WithBook(now: int, bids: seq<Order>, asks: seq<Order>): Market {
    Market(map[XYZ := Stock(bids, asks)], Accounts(), Opened(now), [])
  }

  /** A resting order for one share. */
  function One(who: Name, price: int, now: int): Order {
    Order(who, price, 1, now)
  }

  /** The seven placements, in the bootstrap's order, all for one share. */
  function Placements(m: Market, now: int): Result<Market> {
    var m1 :- PlaceBid(m, "k11", XYZ, 22, 1, now);
    var m2 :- PlaceBid(m1, "k02", XYZ, 27, 1, now);
    var m3 :- PlaceAsk(m2, "k08", XYZ, 77, 1, now);
    var m4 :- PlaceBid(m3, "k01", XYZ, 27, 1, now);
    var m5 :- PlaceAsk(m4, "k03", XYZ, 62, 1, now);
    var m6 :- PlaceBid(m5, "k11", XYZ, 30, 1, now);
    PlaceBid(m6, "k02", XYZ, 67, 1, now)
  }

  /** One bootstrap placement: the session resolves, every check passes, and
      the placed side becomes the replaced queue. */
  lemma PlaceStep(now: int, side: Side, token: Token, who: Name, price: int, bids: seq<Order>, asks: seq<Order>, q': seq<Order>)
    requires token in Opened(now) && Opened(now)[token].trader == who
    requires 0 <= price <= 1000
    requires Replace(side, Stock(bids, asks).Queue(side), One(who, price, now)) == q'
    ensures Place(WithBook(now, bids, asks), token, XYZ, price, 1, side, now)
      == Ok(WithBook(now, if side == Bid then q' else bids, if side == Ask then q' else asks))
  {
    var m := WithBook(now, bids, asks);
    assert Resolve(m.tokens, token, now) == Ok(who);
    assert who in Accounts() && Accounts()[who] == Trader(1000, who, map[XYZ := 5]);
    var st' := Stock(if side == Bid then q' else bids, if side == Ask then q' else asks);
    assert Stock(bids, asks).WithQueue(side, q') == st';
    assert !LacksStock(side, m.traders[who].owns, XYZ, 1);
    assert m.traders[who].money >= price * 1;
    assert Place(m, token, XYZ, price, 1, side, now) == Ok(m.(stocks := m.stocks[XYZ := st']));
    assert m.stocks[XYZ := st'] == map[XYZ := st'];
  }

  /** One replacement on a queue whose rest is already sorted: the new order
      goes to its slot. */
  lemma ReplaceStep(side: Side, q: seq<Order>, o: Order, rest: seq<Order>, j: nat, q': seq<Order>)
    requires RemovePrior(q, o.trader) == rest && Sorted(side, rest)
    requires j <= |rest| && Slot(side, rest, o) == j
    requires q' == rest[..j] + [o] + rest[j..]
    ensures Replace(side, q, o) == q'
  {
    PushSort(side, rest, o);
  }

  /** The bids and the asks after the seven placements. */
  function FinalBids(now: int): seq<Order> {
    [One("t02", 67, now), One("t11", 30, now), One("t01", 27, now)]
  }

  function FinalAsks(now: int): seq<Order> {
    [One("t03", 62, now), One("t08", 77, now)]
  }

  lemma Place1(now: int)
    ensures PlaceBid(WithBook(now, [], []), "k11", XYZ, 22, 1, now) == Ok(WithBook(now, [One("t11", 22, now)], []))
  {
    var b1 := [One("t11", 22, now)];
    ReplaceStep(Bid, [], One("t11", 22, now), [], 0, b1);
    PlaceStep(now, Bid, "k11", "t11", 22, [], [], b1);
  }

  lemma Place2(now: int)
    ensures PlaceBid(WithBook(now, [One("t11", 22, now)], []), "k02", XYZ, 27, 1, now)
      == Ok(WithBook(now, [One("t02", 27, now), One("t11", 22, now)], []))
  {
    var b1 := [One("t11", 22, now)];
    var b2 := [One("t02", 27, now), One("t11", 22, now)];
    assert FindIndex(b1, "t02") == -1;
    ReplaceStep(Bid, b1, One("t02", 27, now), b1, 0, b2);
    PlaceStep(now, Bid, "k02", "t02", 27, b1, [], b2);
  }

  lemma Place3(now: int)
    ensures PlaceAsk(WithBook(now, [One("t02", 27, now), One("t11", 22, now)], []), "k08", XYZ, 77, 1, now)
      == Ok(WithBook(now, [One("t02", 27, now), One("t11", 22, now)], [One("t08", 77, now)]))
  {
    var b2 := [One("t02", 27, now), One("t11", 22, now)];
    ReplaceStep(Ask, [], One("t08", 77, now), [], 0, [One("t08", 77, now)]);
    PlaceStep(now, Ask, "k08", "t08", 77, b2, [], [One("t08", 77, now)]);
  }

  lemma Place4(now: int)
    ensures PlaceBid(WithBook(now, [One("t02", 27, now), One("t11", 22, now)], [One("t08", 77, now)]), "k01", XYZ, 27, 1, now)
      == Ok(WithBook(now, [One("t02", 27, now), One("t01", 27, now), One("t11", 22, now)], [One("t08", 77, now)]))
  {
    var b2 := [One("t02", 27, now), One("t11", 22, now)];
    var b3 := [One("t02", 27, now), One("t01", 27, now), One("t11", 22, now)];
    assert FindIndex(b2[1..], "t01") == -1;
    assert FindIndex(b2, "t01") == -1;
    assert Slot(Bid, b2[1..], One("t01", 27, now)) == 0;
    assert Slot(Bid, b2, One("t01", 27, now)) == 1;
    ReplaceStep(Bid, b2, One("t01", 27, now), b2, 1, b3);
    PlaceStep(now, Bid, "k01", "t01", 27, b2, [One("t08", 77, now)], b3);
  }

  lemma Place5(now: int)
    ensures PlaceAsk(WithBook(now, [One("t02", 27, now), One("t01", 27, now), One("t11", 22, now)], [One("t08", 77, now)]), "k03", XYZ, 62, 1, now)
      == Ok(WithBook(now, [One("t02", 27, now), One("t01", 27, now), One("t11", 22, now)], FinalAsks(now)))
  {
    var b3 := [One("t02", 27, now), One("t01", 27, now), One("t11", 22, now)];
    var a1 := [One("t08", 77, now)];
    assert FindIndex(a1, "t03") == -1;
    ReplaceStep(Ask, a1, One("t03", 62, now), a1, 0, FinalAsks(now));
    PlaceStep(now, Ask, "k03", "t03", 62, b3, a1, FinalAsks(now));
  }

  lemma Place6(now: int)
    ensures PlaceBid(WithBook(now, [One("t02", 27, now), One("t01", 27, now), One("t11", 22, now)], FinalAsks(now)), "k11", XYZ, 30, 1, now)
      == Ok(WithBook(now, [One("t11", 30, now), One("t02", 27, now), One("t01", 27, now)], FinalAsks(now)))
  {
    var b3 := [One("t02", 27, now), One("t01", 27, now), One("t11", 22, now)];
    var r3 := [One("t02", 27, now), One("t01", 27, now)];
    var b4 := [One("t11", 30, now), One("t02", 27, now), One("t01", 27, now)];
    assert FindIndex(b3[2..], "t11") == 0;
    assert b3[1..][1..] == b3[2..];
    assert FindIndex(b3[1..], "t11") == 1;
    assert FindIndex(b3, "t11") == 2;
    assert RemovePrior(b3, "t11") == r3;
    ReplaceStep(Bid, b3, One("t11", 30, now), r3, 0, b4);
    PlaceStep(now, Bid, "k11", "t11", 30, b3, FinalAsks(now), b4);
  }

  lemma Place7(now: int)
    ensures PlaceBid(WithBook(now, [One("t11", 30, now), One("t02", 27, now), One("t01", 27, now)], FinalAsks(now)), "k02", XYZ, 67, 1, now)
      == Ok(WithBook(now, FinalBids(now), FinalAsks(now)))
  {
    var b4 := [One("t11", 30, now), One("t02", 27, now), One("t01", 27, now)];
    var r4 := [One("t11", 30, now), One("t01", 27, now)];
    assert FindIndex(b4[1..], "t02") == 0;
    assert FindIndex(b4, "t02") == 1;
    assert RemovePrior(b4, "t02") == r4;
    ReplaceStep(Bid, b4, One("t02", 67, now), r4, 0, FinalBids(now));
    PlaceStep(now, Bid, "k02", "t02", 67, b4, FinalAsks(now), FinalBids(now));
  }

  /** The seven placements leave the bids at t02@67, t11@30, t01@27 and the
      asks at t03@62, t08@77: t11's and t02's second bids replaced their
      first ones, and t01's bid queued behind t02's earlier bid at 27. */
  lemma BootstrapBook(now: int)
    ensures Placements(WithBook(now, [], []), now) == Ok(WithBook(now, FinalBids(now), FinalAsks(now)))
  {
    Place1(now);
    Place2(now);
    Place3(now);
    Place4(now);
    Place5(now);
    Place6(now);
    Place7(now);
  }

  /** The one trade of the next tick. */
  function Trade(now: int): Transaction {
    Transaction("t03", "t02", 1, 62, XYZ, now)
  }

  /** Settling it: t03 sells one share to t02 for 62. */
  lemma TradeSettles(now: int)
    ensures var ts := Settlement(Accounts(), Trade(now));
      && ts.Keys == Accounts().Keys
      && ts["t02"] == Trader(938, "t02", map[XYZ := 6])
      && ts["t03"] == Trader(1062, "t03", map[XYZ := 4])
      && forall n :: n in Accounts() && n != "t02" && n != "t03" ==> ts[n] == Accounts()[n]
  {
    var a := Accounts();
    var paid := Credit(a, "t03", 62);
    var charged := Credit(paid, "t02", -62);
    var sold := Move(charged, "t03", XYZ, -1);
    assert sold["t03"] == Trader(1062, "t03", map[XYZ := 4]);
    assert sold["t02"] == Trader(938, "t02", map[XYZ := 5]);
  }

  /** The XYZ clearing before the tick and after its one trade. */
  function Before(now: int): Clearing {
    Clearing(Accounts(), Stock(FinalBids(now), FinalAsks(now)), [])
  }

  function After(now: int): Clearing {
    Clearing(Settlement(Accounts(), Trade(now)), Stock([One("t11", 30, now), One("t01", 27, now)], [One("t08", 77, now)]), [Trade(now)])
  }

  /** The heads t02@67 and t03@62 cross and pass validation; executing them
      fills both. */
  lemma FirstRound(now: int)
    ensures KnownBook(Before(now)) && Crosses(Before(now), XYZ, now)
    ensures Candidate(Before(now).book, XYZ, now) == Trade(now)
    ensures Execute(Before(now), Trade(now)) == After(now)
  {
    assert Candidate(Before(now).book, XYZ, now) == Trade(now);
  }

  /** The next heads, t11@30 and t08@77, do not cross. */
  lemma SecondRound(now: int)
    ensures KnownBook(After(now)) && !Crosses(After(now), XYZ, now)
  {
    TradeSettles(now);
    assert After(now).book.bids[0].price < After(now).book.asks[0].price;
  }

  lemma MatchBootstrap(now: int)
    ensures MatchStock(Before(now), XYZ, now) == After(now)
  {
    FirstRound(now);
    SecondRound(now);
    assert MatchStock(After(now), XYZ, now) == After(now);
  }

  /** The tick after the bootstrap: t02's bid at 67 meets t03's ask at 62
      for one share at 62; then t11's bid at 30 does not reach t08's ask at
      77 and matching stops. */
  lemma BootstrapTick(now: int)
    ensures KnownBooks(WithBook(now, FinalBids(now), FinalAsks(now)))
    ensures var r := Step(WithBook(now, FinalBids(now), FinalAsks(now)), [XYZ], now);
      && r.transactions == [Transaction("t03", "t02", 1, 62, XYZ, now)]
      && r.stocks.Keys == {XYZ}
      && r.stocks[XYZ] == Stock([One("t11", 30, now), One("t01", 27, now)], [One("t08", 77, now)])
      && r.traders.Keys == Accounts().Keys
      && r.traders["t02"] == Trader(938, "t02", map[XYZ := 6])
      && r.traders["t03"] == Trader(1062, "t03", map[XYZ := 4])
      && forall n :: n in Accounts() && n != "t02" && n != "t03" ==> r.traders[n] == Accounts()[n]
  {
    BootstrapKnown(now);
    SettleBootstrap(now);
    StepOne(WithBook(now, FinalBids(now), FinalAsks(now)), XYZ, now);
    TradeSettles(now);
  }

  /** A tick over one stock is that stock's match. */
  lemma StepOne(m: Market, name: Name, now: int)
    requires name in m.stocks && KnownBooks(m)
    ensures Step(m, [name], now) == Settle(m, name, now)
  {
    assert Step(m, [name], now) == Step(Settle(m, name, now), [], now);
  }

  lemma BootstrapKnown(now: int)
    ensures KnownBooks(WithBook(now, FinalBids(now), FinalAsks(now)))
  {
    var m := WithBook(now, FinalBids(now), FinalAsks(now));
    assert "t02" in Accounts() && "t11" in Accounts() && "t01" in Accounts();
    assert "t03" in Accounts() && "t08" in Accounts();
    assert m.stocks[XYZ] == Stock(FinalBids(now), FinalAsks(now));
  }

  lemma SettleBootstrap(now: int)
    ensures KnownBooks(WithBook(now, FinalBids(now), FinalAsks(now)))
    ensures var m := WithBook(now, FinalBids(now), FinalAsks(now));
      Settle(m, XYZ, now) == m.(traders := After(now).traders, stocks := m.stocks[XYZ := After(now).book], transactions := After(now).log)
  {
    var m := WithBook(now, FinalBids(now), FinalAsks(now));
    BootstrapKnown(now);
    assert ClearingOf(m, XYZ) == Before(now);
    MatchBootstrap(now);
  }
}

=== FILE: sessions.dfy ===
/** The session-token table: issuing a token, resolving it to its trader,
    revoking it, and sweeping out the expired ones. */
module Sessions {
  import opened Types

  /** The trader a token stands for at time `now`: unknown tokens and tokens
      past their expiry are refused. */
  function Resolve(tokens: map<Token, TokenData>, token: Token, now: int): (r: Result<Name>)
    ensures r.Ok? <==> token in tokens && now <= tokens[token].until
    ensures r.Ok? ==> r.value == tokens[token].trader
    ensures r == Err(InvalidToken) <==> token !in tokens
    ensures r == Err(ExpiredToken) <==> token in tokens && now > tokens[token].until
  {
    if token !in tokens then Err(InvalidToken)
    else if now > tokens[token].until then Err(ExpiredToken)
    else Ok(tokens[token].trader)
  }

  /** Records a session for `trader` under `newToken`, which the
      source's retry loop draws until it is not already in the table. */
  function Issue(tokens: map<Token, TokenData>, trader: Name, now: int, newToken: Token): (r: map<Token, TokenData>)
    requires newToken !in tokens
    ensures r.Keys == tokens.Keys + {newToken}
    ensures forall t :: t in tokens ==> r[t] == tokens[t]
    ensures forall later :: now <= later <= now + TokenDuration ==> Resolve(r, newToken, later) == Ok(trader)
    ensures forall later :: later > now + TokenDuration ==> Resolve(r, newToken, later) == Err(ExpiredToken)
  {
    tokens[newToken := TokenData(trader, now + TokenDuration)]
  }

  /** An upper bound on the lengths of a finite set of strings. */
  ghost function MaxLength(s: set<string>): (n: nat)
    ensures forall x :: x in s ==> |x| <= n
    decreases s
  {
    if s == {} then 0
    else
      var x :| x in s;
      var n := MaxLength(s - {x});
      if |x| > n then |x| else n
  }

  /** The token table is finite, so some string is not in it and a fresh
      token can always be chosen. */
  lemma FreshTokenExists(tokens: map<Token, TokenData>)
    ensures exists t: Token :: t !in tokens
  {
    var t: Token := seq(MaxLength(tokens.Keys) + 1, _ => 'a');
    assert t !in tokens;
  }

  /** Removes a token; unknown tokens are left alone. */
  function Revoke(tokens: map<Token, TokenData>, token: Token): (r: map<Token, TokenData>)
    ensures token !in r
    ensures forall t :: t != token ==> (t in r <==> t in tokens)
    ensures forall t :: t in r ==> r[t] == tokens[t]
  {
    tokens - {token}
  }

  /** Revoking twice is revoking once, and revoking an unknown token changes
      nothing. */
  lemma RevokeIdempotent(tokens: map<Token, TokenData>, token: Token)
    ensures Revoke(Revoke(tokens, token), token) == Revoke(tokens, token)
    ensures token !in tokens ==> Revoke(tokens, token) == tokens
  {
  }

  /** The periodic sweep: drops exactly the tokens expired at `now`. */
  function Sweep(tokens: map<Token, TokenData>, now: int): (r: map<Token, TokenData>)
    ensures forall t :: t in r <==> t in tokens && now <= tokens[t].until
    ensures forall t :: t in r ==> r[t] == tokens[t]
  {
    map t | t in tokens && !(now > tokens[t].until) :: tokens[t]
  }

  /** Sweeping changes no token's resolution at the sweep time or later,
      except that an expired token now reads as unknown. */
  lemma SweepKeepsResolution(tokens: map<Token, TokenData>, now: int, token: Token, later: int)
    requires now <= later
    ensures Resolve(Sweep(tokens, now), token, later).Ok? <==> Resolve(tokens, token, later).Ok?
    ensures Resolve(tokens, token, later).Ok? ==> Resolve(Sweep(tokens, now), token, later) == Resolve(tokens, token, later)
    ensures Resolve(tokens, token, now) == Err(ExpiredToken) ==> Resolve(Sweep(tokens, now), token, now) == Err(InvalidToken)
  {
  }

  /** A second sweep at the same time removes nothing more. */
  lemma SweepIdempotent(tokens: map<Token, TokenData>, now: int)
    ensures Sweep(Sweep(tokens, now), now) == Sweep(tokens, now)
  {
  }
}

=== FILE: snapshot.dfy ===
/** Saving and restoring the exchange (_get_state_, _clean_state_,
    _set_state_): a snapshot holds the stocks, the traders and the
    transaction log; the session tokens are never part of it. */
module Snapshot {
  import opened Types
  import opened Book

  datatype State = State(stocks: map<Name, Stock>, traders: map<Name, Trader>, transactions: seq<Transaction>)

  /** _get_state_: the three tables a snapshot holds. */
  function GetState(m: Market): (st: State)
    ensures st.stocks == m.stocks && st.traders == m.traders && st.transactions == m.transactions
  {
    State(m.stocks, m.traders, m.transactions)
  }

  /** _clean_state_: empties stocks, traders and the log; sessions stay. */
  function Clean(m: Market): (r: Market)
    ensures r.stocks == map[] && r.traders == map[] && r.transactions == []
    ensures r.tokens == m.tokens
  {
    Market(map[], map[], m.tokens, [])
  }

  /** _set_state_: Object.assign of the snapshot's stocks and traders over
      the live ones (the snapshot's entry wins on a shared name, other live
      entries stay), and the snapshot's transactions pushed after the live
      log. Sessions are untouched. */
  function SetState(m: Market, st: State): (r: Market)
    ensures r.stocks.Keys == m.stocks.Keys + st.stocks.Keys
    ensures r.traders.Keys == m.traders.Keys + st.traders.Keys
    ensures forall s :: s in st.stocks ==> r.stocks[s] == st.stocks[s]
    ensures forall s :: s in m.stocks && s !in st.stocks ==> r.stocks[s] == m.stocks[s]
    ensures forall n :: n in st.traders ==> r.traders[n] == st.traders[n]
    ensures forall n :: n in m.traders && n !in st.traders ==> r.traders[n] == m.traders[n]
    ensures |r.transactions| == |m.transactions| + |st.transactions|
    ensures r.transactions[..|m.transactions|] == m.transactions
    ensures r.transactions[|m.transactions|..] == st.transactions
    ensures r.tokens == m.tokens
  {
    var log := m.transactions + st.transactions;
    assert log[..|m.transactions|] == m.transactions;
    Market(m.stocks + st.stocks, m.traders + st.traders, m.tokens, log)
  }

  /** Restoring a snapshot into a cleaned exchange gives back the exchange
      it was taken from. */
  lemma RestoreRoundTrip(m: Market)
    ensures SetState(Clean(m), GetState(m)) == m
  {
    var r := SetState(Clean(m), GetState(m));
    assert r.stocks == m.stocks;
    assert r.traders == m.traders;
  }

  /** Restoring the same snapshot twice is idempotent on stocks and traders
      but appends its transactions a second time. */
  lemma RestoreTwice(m: Market, st: State)
    ensures var once := SetState(m, st);
      var twice := SetState(once, st);
      && twice.stocks == once.stocks && twice.traders == once.traders && twice.tokens == once.tokens
      && twice.transactions == once.transactions + st.transactions
  {
    var once := SetState(m, st);
    var twice := SetState(once, st);
    assert twice.stocks == once.stocks;
    assert twice.traders == once.traders;
  }

  /** Restoring a snapshot of the live exchange into itself keeps the tables
      and doubles the log: the push loop only visits the entries the log had
      when it started. */
  lemma RestoreIntoItself(m: Market)
    ensures SetState(m, GetState(m)) == m.(transactions := m.transactions + m.transactions)
  {
    var r := SetState(m, GetState(m));
    assert r.stocks == m.stocks;
    assert r.traders == m.traders;
  }

  /** A queue naming registered traders still does so once more traders are
      registered. */
  lemma KnownGrows(q: seq<Order>, traders: map<Name, Trader>, more: map<Name, Trader>)
    requires Known(q, traders) && traders.Keys <= more.Keys
    ensures Known(q, more)
  {
  }

  /** A restore keeps every book well formed when the snapshot's own books
      are well formed against the traders the exchange will have; a restore
      of any other snapshot is not checked by the source. */
  lemma SetStateKeepsWellformed(m: Market, st: State)
    requires Wellformed(m)
    requires forall s :: s in st.stocks ==> BookOk(st.stocks[s], m.traders + st.traders)
    ensures Wellformed(SetState(m, st))
  {
    var r := SetState(m, st);
    forall s | s in r.stocks
      ensures BookOk(r.stocks[s], r.traders)
    {
      if s !in st.stocks {
        KnownGrows(m.stocks[s].bids, m.traders, r.traders);
        KnownGrows(m.stocks[s].asks, m.traders, r.traders);
      }
    }
  }
}

=== FILE: sums.dfy ===
/** Sums of the values of a finite map, used to state conservation of cash
    and of shares across all traders. */
module Sums {

  /** Sum of m's values over the given keys. */
  ghost function SumOver(m: map<string, int>, keys: set<string>): int
    requires keys <= m.Keys
    decreases keys
  {
    if keys == {} then 0
    else
      var k :| k in keys;
      m[k] + SumOver(m, keys - {k})
  }

  /** Sum of all of m's values. */
  ghost function Sum(m: map<string, int>): int {
    SumOver(m, m.Keys)
  }

  /** Any key can be taken out first. */
  lemma {:induction false} SumOverRemove(m: map<string, int>, keys: set<string>, k: string)
    requires keys <= m.Keys && k in keys
    ensures SumOver(m, keys) == m[k] + SumOver(m, keys - {k})
    decreases keys
  {
    var j :| j in keys && SumOver(m, keys) == m[j] + SumOver(m, keys - {j});
    if j != k {
      SumOverRemove(m, keys - {j}, k);
      SumOverRemove(m, keys - {k}, j);
      assert keys - {j} - {k} == keys - {k} - {j};
    }
  }

  /** The sum only depends on the values at the keys summed over. */
  lemma {:induction false} SumOverAgree(m: map<string, int>, m': map<string, int>, keys: set<string>)
    requires keys <= m.Keys && keys <= m'.Keys
    requires forall k :: k in keys ==> m[k] == m'[k]
    ensures SumOver(m, keys) == SumOver(m', keys)
    decreases keys
  {
    if keys != {} {
      var k :| k in keys;
      SumOverRemove(m, keys, k);
      SumOverRemove(m', keys, k);
      SumOverAgree(m, m', keys - {k});
    }
  }

  /** Overwriting one existing value changes the sum by the difference. */
  lemma SumUpdate(m: map<string, int>, k: string, v: int)
    requires k in m
    ensures Sum(m[k := v]) == Sum(m) - m[k] + v
  {
    var m' := m[k := v];
    assert m'.Keys == m.Keys;
    SumOverRemove(m, m.Keys, k);
    SumOverRemove(m', m.Keys, k);
    SumOverAgree(m, m', m.Keys - {k});
  }
}

=== FILE: types.dfy ===
/** The data of the toy exchange: traders, session tokens, per-stock order
    books and the transaction log, gathered into one immutable market record
    that every operation takes and returns. */
module Types {

  type Name = string
  type Token = string

  /** Lifetime of a session token in milliseconds: 24 hours. */
  const TokenDuration: int := 24 * 60 * 60 * 1000

  datatype Side = Bid | Ask {
    function Opposite(): Side {
      match this
      case Bid => Ask
      case Ask => Bid
    }
  }

  /** A trader account. Holdings are only ever adjusted by deltas, so they are
      kept as signed integers; a stock never held is simply absent. */
  datatype Trader = Trader(money: int, password: string, owns: map<Name, int>)

  /** What a session token stands for: its trader and its expiry time. */
  datatype TokenData = TokenData(trader: Name, until: int)

  /** A resting bid or ask ("intent"). */
  datatype Order = Order(trader: Name, price: int, quantity: int, when: int)

  /** The two queues of one stock: bids best (highest) first, asks best
      (lowest) first. */
  datatype Stock = Stock(bids: seq<Order>, asks: seq<Order>) {

    function Queue(side: Side): seq<Order> {
      match side
      case Bid => bids
      case Ask => asks
    }

    function WithQueue(side: Side, q: seq<Order>): (r: Stock)
      ensures r.Queue(side) == q
      ensures r.Queue(side.Opposite()) == Queue(side.Opposite())
    {
      match side
      case Bid => this.(bids := q)
      case Ask => this.(asks := q)
    }
  }

  /** An executed trade: `from` sold `quantity` shares of `stock` to `to` at
      `price` each. */
  datatype Transaction = Transaction(from: Name, to: Name, quantity: int, price: int, stock: Name, when: int)

  /** The whole exchange: the four process-wide tables of the source. */
  datatype Market = Market(
    stocks: map<Name, Stock>,
    traders: map<Name, Trader>,
    tokens: map<Token, TokenData>,
    transactions: seq<Transaction>)

  /** One constructor per distinct error the core throws. */
  datatype Error =
    | InvalidToken     // "token is not valid"
    | ExpiredToken     // "token has expired"
    | TraderExists     // "trader already exists"
    | BadMoney         // "money must be a positive number"
    | LoginFailed      // "trader failed logging in"
    | NoSuchTrader     // "trader does not exist"
    | NoSuchStock      // "stock does not exist"
    | BadPrice         // "price must be a positive number"
    | BadQuantity      // "quantity must be a positive or 0 integer number"
    | NotEnoughStock   // "trader does not have enough stock quantity"
    | NotEnoughMoney   // "trader does not have enough money"

  /** Either the operation's value or the error it throws; usable with `:-`. */
  datatype Result<+T> = Ok(value: T) | Err(error: Error) {

    predicate IsFailure() {
      Err?
    }

    function PropagateFailure<U>(): Result<U>
      requires Err?
    {
      Err(error)
    }

    function Extract(): T
      requires Ok?
    {
      value
    }
  }
}
